=== FILE: README.md ===
# Reactive pizza: the facade core in Dafny

A model of the state-management core of the reactive-pizza Angular
application. It covers the following parts:

- **`PizzaFacade`** keeps one module-level state record, `_state`. Every
  facade instance shares it, and each instance publishes it through its own
  `BehaviorSubject` store. Seven of the eight slice streams are `map`
  followed by `distinctUntilChanged`; `loading$` is `map` alone. The eight feed the `vm$` view model, which is a
  `combineLatest` over those slices. The mutators are
  `updatePizzaSearchCriteria`, `updatePagination`, `doOperation`,
  `emitLatest` and the two-phase, delayed `addPizza`. The constructor also
  installs the two loader subscriptions, and their completions are modelled.
- **The generic `Facade<T>`**: its constructor merges the argument over a
  default record and throws on a missing argument. It also has
  `updateState`, `getStateSnapshot` and `emitLatest`.
- **`SampleFacade`** is the same slices and view model built on `Facade`, with
  `records` in place of `pizzas`.
- **`PizzaService`** holds the two catalogues, `addPizza`, the deduplicated
  `store` and `select`.
- **The pizza form's topping list**: `selectTopping` uses the `!!~indexOf`
  membership idiom, then calls either `addTopping` or `removeTopping`. The
  `onSubmit` guard starts `addPizza` and then calls `resetForm`.
- **The toppings selector**: `exists`, `isActive`, `onSelect` and its error
  condition.
- **`buildUserUrl`**, which assembles the random-user query URL.

Streams are modelled as finite traces: the sequence of values a store has
published, oldest first. An operator is a function from its input trace to its
output trace.

- `Streams.Dedup` is `distinctUntilChanged`.
- `Streams.Run` is `combineLatest` over slices of one store. Each published
  value reaches the slices in subscription order, and the combination emits
  once every slice has emitted.
- The shared `_state` and the per-instance stores are `PizzaFacade.Runtime`.
- The delayed half of `addPizza` is a `PendingAdd` value that the caller
  completes later against whatever `_state` holds at that time.
- The JavaScript idiom `!!~i` is modelled through ECMAScript's ToInt32. It
  means "found" for every index an array can produce. `JsArray.FoundFailsPastBound`
  shows that the 32-bit bound is what makes it sound.

Modules:

| module | file | models |
|---|---|---|
| `Wrappers` | wrappers.dfy | `Option`, `Result`, `Last` |
| `Interfaces` | interfaces.dfy | `Pizza`, `Pagination`, `Operation` records |
| `Streams` | streams.dfy | `map`, `distinctUntilChanged`, `combineLatest` |
| `JsArray` | jsarray.dfy | `indexOf`, `splice(i, 1)`, `~` and `!!` |
| `Decimal` | decimal.dfy | `${n}` for integral numbers, and its inverse |
| `UserUrl` | userurl.dfy | `buildUserUrl` |
| `PizzaService` | pizzaservice.dfy | pizza.service.ts |
| `Facade` | facade.dfy | facade.ts |
| `SampleFacade` | samplefacade.dfy | sample.facade.ts |
| `PizzaFacade` | pizzafacade.dfy | pizza.facade.ts |
| `PizzaForm` | pizzaform.dfy | pizza-form.component.ts |
| `ToppingsSelector` | toppingsselector.dfy | toppings-selector.component.ts |

## Model

| member | source | states |
|---|---|---|
| Streams.MapSeq | src/app/pizza/pizza.facade.ts:84 | `map` yields exactly one value per input value: the projection of that value, at the same position |
| Streams.DedupAfterFacts | src/app/pizza/pizza.service.ts:34-35 | once `distinctUntilChanged` has emitted `last`, it never emits two equal values in a row. Its next value differs from `last`. It emits only values it received. Its last emission is the last input or, if every input equalled what it already had, `last` |
| Streams.Dedup | src/app/pizza/pizza.service.ts:34-35 | `distinctUntilChanged` emits no equal neighbours and only received values. It passes the first value through, and its last emission equals the last value received. Which values in between it passes on is stated by `Streams.DedupSnoc` |
| Streams.DedupAfterNoRepeats | src/app/pizza/pizza.service.ts:34-35 | a trace whose neighbours already differ (and whose first value differs from the last emitted value) passes through unchanged |
| Streams.DedupFixedPoint | src/app/pizza/pizza.service.ts:34-35 | `distinctUntilChanged` leaves a trace unchanged if and only if no two neighbours are equal; applying it twice is the same as applying it once |
| Streams.DedupAfterSnoc | src/app/pizza/pizza.service.ts:34-35 | one more input after a run that started from `last` is emitted if and only if it differs from the last input, or from `last` when there was none |
| Streams.DedupSnoc | src/app/pizza/pizza.service.ts:34-35 | the step law: appending a value to a non-empty trace appends it to the output if and only if it differs from the value received just before it, and otherwise leaves the output as it was |
| Streams.DedupAfterLength | src/app/pizza/pizza.service.ts:34-35 | the operator never emits more values than it receives |
| Streams.DedupLength | src/app/pizza/pizza.service.ts:34-35 | the same, from a fresh subscription |
| Streams.Slice | src/app/pizza/pizza.facade.ts:60-63 | a slice (`map` then `distinctUntilChanged`) never repeats a value and emits at most one value per state. It starts with the first state's field and ends with the latest state's field |
| Streams.SliceSnoc | src/app/pizza/pizza.facade.ts:60-63 | a newly published state adds its field to the slice if and only if that field differs from the previous state's field |
| Streams.DeliverFrom | src/app/pizza/pizza.facade.ts:93-102 | one published value reaching the remaining slices in order. Earlier slots are untouched. A slot is overwritten exactly when its slice passes the value on. Each emission holds one value per slice. `combineLatest` emits only when all slots are filled, and its last emission is the slot contents. When no remaining slice passes the value on, nothing is emitted. It emits at most once per slice that passes the value on, and exactly that many times once every slot is filled |
| Streams.EmitCountFrame | src/app/pizza/pizza.facade.ts:93-102 | how many remaining slices pass a value on depends only on the remaining slots |
| Streams.DeliverEmits | src/app/pizza/pizza.facade.ts:93-102 | if the earlier slots are filled and some remaining slice passes the value on, `combineLatest` emits |
| Streams.FirstDelivery | src/app/pizza/pizza.facade.ts:93-102 | the first value reaching slices that have never emitted fills all of them, and `combineLatest` emits only at the last slice, with every slot holding that value |
| Streams.Run | src/app/pizza/pizza.facade.ts:93-102 | `combineLatest` fed a whole trace keeps one slot per slice, and every vector it emits has one entry per slice |
| Streams.RunLatest | src/app/pizza/pizza.facade.ts:93-102 | when one slice does not deduplicate, `combineLatest` emits at least once per published value. After a trace, every slot agrees with the latest value on its slice, and the last emission is those slots |
| Streams.DeliverOnce | src/app/pizza/pizza.facade.ts:93-102 | with one slice that never drops a value, a published value reaching a fresh or fully filled set of slices makes `combineLatest` emit, and every slot then agrees with that value on its slice |
| Streams.RunFirst | src/app/pizza/pizza.facade.ts:93-102 | on a fresh subscription, the first vector emitted holds the first published value in every slot |
| JsArray.IndexOf | src/app/pizza/components/pizza-form/pizza-form.component.ts:93 | `indexOf` returns -1 exactly when the value is absent. Otherwise it returns the position of the value's first occurrence |
| JsArray.ToInt32 | src/app/pizza/components/pizza-form/pizza-form.component.ts:94 | `~` first wraps its operand into the signed 32-bit range, preserving the value modulo 2^32 |
| JsArray.BitNot | src/app/pizza/components/pizza-form/pizza-form.component.ts:94 | `~n` is a signed 32-bit integer and equals -n - 1 modulo 2^32 |
| JsArray.Found | src/app/pizza/components/pizza-form/pizza-form.component.ts:94 | `!!~n` holds if and only if n is not -1 modulo 2^32 |
| JsArray.FoundIffPresent | src/app/pizza/components/pizza-form/pizza-form.component.ts:93-94 | for every value `indexOf` can return on an array, `!!~i` holds if and only if `i != -1` |
| JsArray.FoundFailsPastBound | src/app/pizza/components/toppings-selector/toppings-selector.component.ts:55 | at index 2^32 - 1 the idiom would read "absent", so it depends on the array-length bound |
| JsArray.FoundIndexOfIffIn | src/app/pizza/components/toppings-selector/toppings-selector.component.ts:55 | `!!~xs.indexOf(x)` holds if and only if `x` occurs in `xs` |
| JsArray.RemoveAt | src/app/pizza/components/pizza-form/pizza-form.component.ts:86-88 | `removeAt(i)` drops exactly element `i` and keeps the order of the rest. The multiset loses that one element |
| Decimal.NatToString | src/app/user/user.service.ts:36-37 | a natural number prints as a non-empty run of digits with no leading zero |
| Decimal.IntToString | src/app/user/user.service.ts:36-37 | an integral number prints as non-empty text with no `&` in it |
| Decimal.NatRoundTrip | src/app/user/user.service.ts:36-37 | reading the printed digits gives the natural number back |
| Decimal.IntRoundTrip | src/app/user/user.service.ts:36-37 | parsing the printed form of any integer gives the integer back |
| UserUrl.BuildUserUrl | src/app/user/user.service.ts:34-41 | the URL starts with the endpoint, `?`, the fixed search text and `&results=`. It ends with `&&page=` followed by the current page. Both the page size and the page number can be read back from it |
| UserUrl.Shape | src/app/user/user.service.ts:35-40 | the template's pieces regroup into endpoint and search text, size, separator and page |
| UserUrl.ParseBuilt | src/app/user/user.service.ts:40 | a URL of that shape parses back to its page size and page number |
| UserUrl.ParseTailBuilt | src/app/user/user.service.ts:36-37 | the size part and the page part are separated by the first `&` and parse back exactly |
| UserUrl.CriteriaIgnored | src/app/user/user.service.ts:34-40 | the search criteria have no effect on the URL |
| PizzaService.Store | src/app/pizza/pizza.service.ts:34-35 | `store` never repeats a value and emits only values the subject held. It starts on the subject's first value and ends on its current value |
| PizzaService.StoreOnNext | src/app/pizza/pizza.service.ts:33-35 | one more `next(s)` on the subject makes `store` emit `s` if and only if `s` differs from the current value; otherwise `store` stays silent |
| PizzaService.NewService | src/app/pizza/pizza.service.ts:25-33 | the subject starts holding both catalogues, and that is the only value it has been given |
| PizzaService.GetPizzas | src/app/pizza/pizza.service.ts:41-43 | four catalogue pizzas with distinct names. No pizza lists a topping twice |
| PizzaService.GetToppings | src/app/pizza/pizza.service.ts:45-47 | eight toppings, all distinct |
| PizzaService.CatalogueNotClosed | src/app/pizza/pizza.service.ts:11-18 | some catalogue pizza lists a topping the topping catalogue lacks |
| PizzaService.AddPizza | src/app/pizza/pizza.service.ts:49-52 | the subject's next value keeps every pizza, appends the new one last and keeps the toppings. It is pushed after all earlier values |
| PizzaService.Field | src/app/pizza/pizza.service.ts:38 | `x[name]` reads the pizzas exactly for `"pizzas"` and the toppings exactly for `"toppings"`, and is undefined for every other name |
| PizzaService.Select | src/app/pizza/pizza.service.ts:37-39 | `select(name)` emits the named field (or undefined) of each value `store` emits, one for one. Its latest value is the current value's field |
| PizzaService.AddAll | src/app/pizza/pizza.service.ts:49-52 | any run of `addPizza` keeps the subject's current value equal to its last value |
| PizzaService.AddAllHistory | src/app/pizza/pizza.service.ts:49-52 | after n additions the subject has held n + 1 values. The i-th has i more pizzas than the start and the same toppings |
| PizzaService.StoreAfterAdds | src/app/pizza/pizza.service.ts:34-35 | after additions `store` drops no value, because every addition changes the state |
| PizzaService.SelectToppingsAfterAdds | src/app/pizza/pizza.service.ts:37-39 | after n additions `select('toppings')` has emitted the same topping list n + 1 times, because the projection is not deduplicated |
| Facade.Construct | src/app/facade.ts:19-52 | a missing argument throws `"state parameter undefined"`. Otherwise each field comes from the argument when supplied and from the default record otherwise (empty records, first page of five, not loading, counter 0). The store starts with that one record |
| Facade.ConstructSupplied | src/app/facade.ts:48-50 | an argument supplying every field yields exactly that record, published once |
| Facade.UpdateState | src/app/facade.ts:55-57 | the instance's record becomes the new state, and the store gains it after everything it had |
| Facade.GetStateSnapshot | src/app/facade.ts:62-64 | the snapshot equals the instance's current record |
| Facade.EmitLatest | src/app/facade.ts:66-69 | the counter goes up by one and nothing else changes. The new record is appended after everything already published |
| Facade.EmitLatestTimesCounts | src/app/facade.ts:66-69 | n calls raise the counter by exactly n and change nothing else. They publish n values after the ones already published, which are kept |
| SampleFacade.InitialStateFacts | src/app/sample.facade.ts:16-32 | the sample record starts empty, on the first page of fifty (an offered size), not loading, counter 0 |
| SampleFacade.NewSampleFacade | src/app/sample.facade.ts:94-95 | the store is created on exactly the sample record. The loader completions that follow during construction are `PizzasLoaded` and `ToppingsLoaded` |
| SampleFacade.PizzasLoaded | src/app/sample.facade.ts:105-108 | the loader's result replaces `records` and clears `loading`. Nothing else changes, and the record is published exactly once, after everything already published |
| SampleFacade.ToppingsLoaded | src/app/sample.facade.ts:118-121 | the loader's result replaces `toppings` and clears `loading`. Nothing else changes, and the record is published exactly once, after everything already published |
| SampleFacade.PizzasSlice | src/app/sample.facade.ts:37-40 | `pizzas$` never repeats a value and ends on the latest `records` |
| SampleFacade.ToppingsSlice | src/app/sample.facade.ts:41-44 | `toppings$` never repeats a value and ends on the latest toppings |
| SampleFacade.PizzaSearchSlice | src/app/sample.facade.ts:45-48 | `pizzaSearch$` never repeats a value and ends on the latest search |
| SampleFacade.ToppingSearchSlice | src/app/sample.facade.ts:49-52 | `toppingSearch$` never repeats a value and ends on the latest topping search |
| SampleFacade.PaginationSlice | src/app/sample.facade.ts:53-56 | `pagination$` never repeats a value and ends on the latest pagination |
| SampleFacade.OperationSlice | src/app/sample.facade.ts:57-60 | `operation$` never repeats a value and ends on the latest operation |
| SampleFacade.LoadingSlice | src/app/sample.facade.ts:61 | `loading$` emits one value per published record, without deduplication |
| SampleFacade.CounterSlice | src/app/sample.facade.ts:62-65 | `counter$` never repeats a value and ends on the latest counter |
| SampleFacade.Compose | src/app/sample.facade.ts:80-91 | the projection takes each field from the slot of the slice that carries it, `pizzas` into `records` |
| SampleFacade.ComposeAll | src/app/sample.facade.ts:70-92 | `vm$` emits one record per vector the combination emits, and the i-th record is the projection of the i-th vector |
| SampleFacade.Vm | src/app/sample.facade.ts:70-92 | on a non-empty trace, `vm$` emits at least once per published record, starts on the first record and ends on the latest record |
| SampleFacade.ComposeAgreeing | src/app/sample.facade.ts:80-91 | slots that agree with a record slice by slice project back to that record, `pizzas` into `records` |
| SampleFacade.VmLatest | src/app/sample.facade.ts:70-92 | the combination emits at least once per published record, and its last vector projects to the latest record |
| SampleFacade.VmFirst | src/app/sample.facade.ts:70-92 | the combination emits, and its first vector projects to the first published record |
| SampleFacade.VmOfInstance | src/app/sample.facade.ts:70-92 | for any instance whose values are delivered one after the other, the latest value of `vm$` is its current state |
| PizzaFacade.InitialStateFacts | src/app/pizza/pizza.facade.ts:37-53 | `_state` starts empty, on the first page of five (an offered size, among 5, 10, 20, 50), not loading, counter 0 |
| PizzaFacade.NewFacade | src/app/pizza/pizza.facade.ts:56-57 | the store is created on the current shared record, and creating it leaves the record as it is. The loader completions that follow during construction are `PizzasLoaded` and `ToppingsLoaded` |
| PizzaFacade.UpdateState | src/app/pizza/pizza.facade.ts:256-258 | the shared record becomes the new state, the calling instance's store gains it, and every other store is unchanged |
| PizzaFacade.GetStateSnapshot | src/app/pizza/pizza.facade.ts:181-183 | the snapshot equals the shared record |
| PizzaFacade.EmitLatest | src/app/pizza/pizza.facade.ts:185-188 | the counter goes up by one and no other field changes |
| PizzaFacade.UpdatePizzaSearchCriteria | src/app/pizza/pizza.facade.ts:218-220 | the search is set and `loading` raised. No other field changes |
| PizzaFacade.UpdatePagination | src/app/pizza/pizza.facade.ts:222-225 | size and page are set, with the page defaulting to 0. The offered sizes are kept and `loading` is raised. The size ends up among the offered ones if and only if it was one |
| PizzaFacade.DoOperation | src/app/pizza/pizza.facade.ts:227-234 | only `loading` changes. The requested operation is not recorded |
| PizzaFacade.AddPizzaStart | src/app/pizza/pizza.facade.ts:236-246 | the call itself only raises `loading`. The pizza is not yet in the list |
| PizzaFacade.AddPizzaComplete | src/app/pizza/pizza.facade.ts:247-250 | the delayed callback appends the pizza to the pizzas current at that time and clears `loading`. Nothing else changes |
| PizzaFacade.PizzasLoaded | src/app/pizza/pizza.facade.ts:133-136 | the loader's result replaces the pizzas and clears `loading`. Nothing else changes |
| PizzaFacade.ToppingsLoaded | src/app/pizza/pizza.facade.ts:146-149 | the loader's result replaces the toppings and clears `loading`. Nothing else changes |
| PizzaFacade.AddPizzaScenario | src/app/pizza/pizza.facade.ts:236-251 | right after `addPizza` the snapshot shows `loading` and no pizza. After the delay it shows the pizza with `loading` cleared |
| PizzaFacade.PaginationSurvivesAdd | src/app/pizza/pizza.facade.ts:222-250 | a pagination change made while an add is pending survives the add's completion |
| PizzaFacade.OverlappingAddsKeepBoth | src/app/pizza/pizza.facade.ts:236-251 | two adds pending at once both land, in completion order |
| PizzaFacade.ReloadDropsAddedPizza | src/app/pizza/pizza.facade.ts:133-136 | a pizzas reload after an add replaces the whole list, so the added pizza is gone |
| PizzaFacade.InstancesShareState | src/app/pizza/pizza.facade.ts:37-57 | a second instance starts from what the first one published. After the second publishes, the first one's store lags behind `_state` |
| PizzaFacade.PizzasSlice | src/app/pizza/pizza.facade.ts:60-63 | `pizzas$` never repeats a value and ends on the latest pizzas |
| PizzaFacade.ToppingsSlice | src/app/pizza/pizza.facade.ts:64-67 | `toppings$` never repeats a value and ends on the latest toppings |
| PizzaFacade.PizzaSearchSlice | src/app/pizza/pizza.facade.ts:68-71 | `pizzaSearch$` never repeats a value and ends on the latest search |
| PizzaFacade.ToppingSearchSlice | src/app/pizza/pizza.facade.ts:72-75 | `toppingSearch$` never repeats a value and ends on the latest topping search |
| PizzaFacade.PaginationSlice | src/app/pizza/pizza.facade.ts:76-79 | `pagination$` never repeats a value and ends on the latest pagination |
| PizzaFacade.OperationSlice | src/app/pizza/pizza.facade.ts:80-83 | `operation$` never repeats a value and ends on the latest operation |
| PizzaFacade.LoadingSlice | src/app/pizza/pizza.facade.ts:84 | `loading$` emits one value per published state, without deduplication |
| PizzaFacade.CounterSlice | src/app/pizza/pizza.facade.ts:85-88 | `counter$` never repeats a value and ends on the latest counter |
| PizzaFacade.Compose | src/app/pizza/pizza.facade.ts:103-114 | the projection takes each field from the slot of the slice that carries it |
| PizzaFacade.ComposeAll | src/app/pizza/pizza.facade.ts:93-115 | `vm$` emits one record per vector the combination emits, and the i-th record is the projection of the i-th vector |
| PizzaFacade.Vm | src/app/pizza/pizza.facade.ts:93-115 | on a non-empty trace, `vm$` emits at least once per published state, starts on the first state and ends on the latest state |
| PizzaFacade.ComposeAgreeing | src/app/pizza/pizza.facade.ts:103-114 | slots that agree with a record slice by slice project back to that record |
| PizzaFacade.VmLatest | src/app/pizza/pizza.facade.ts:93-115 | the combination emits at least once per published state, and its last vector projects to the latest state |
| PizzaFacade.VmFirst | src/app/pizza/pizza.facade.ts:93-115 | the combination emits, and its first vector projects to the first published state |
| PizzaFacade.VmAfterPublish | src/app/pizza/pizza.facade.ts:93-115 | after a publish whose value is delivered in full before the next one, the latest value of the publishing instance's `vm$` is `_state` |
| PizzaForm.Value | src/app/pizza/components/pizza-form/pizza-form.component.ts:114 | `form.value` is the pizza with the form's name and its toppings in order |
| PizzaForm.NameErrorShown | src/app/pizza/components/pizza-form/pizza-form.component.ts:74-79 | the name error shows if and only if the name has the `required` error and has been touched |
| PizzaForm.AddTopping | src/app/pizza/components/pizza-form/pizza-form.component.ts:81-84 | the topping is appended last and the array marked touched. The name is untouched |
| PizzaForm.RemoveTopping | src/app/pizza/components/pizza-form/pizza-form.component.ts:86-90 | exactly the element at the index goes and the rest keep their order. Nothing else changes |
| PizzaForm.SelectTopping | src/app/pizza/components/pizza-form/pizza-form.component.ts:92-101 | an absent topping is added at the end. A present one loses its first occurrence, the rest keep their order, and the touched flag is left alone. The multiset gains or loses that one topping |
| PizzaForm.ResetForm | src/app/pizza/components/pizza-form/pizza-form.component.ts:103-107 | no toppings, a cleared name, and nothing touched |
| PizzaForm.OnSubmit | src/app/pizza/components/pizza-form/pizza-form.component.ts:109-116 | an invalid form changes nothing and starts nothing. A valid one starts `addPizza` with the form's value, which publishes once and raises `loading` with no other field changed, and leaves the form exactly as `resetForm` does |
| PizzaForm.ToggleAbsentTwice | src/app/pizza/components/pizza-form/pizza-form.component.ts:92-98 | selecting an absent topping twice restores the original list |
| PizzaForm.SelectKeepsNoDuplicates | src/app/pizza/components/pizza-form/pizza-form.component.ts:92-98 | a list without duplicates has none after a toggle |
| PizzaForm.RemoveAtNoDuplicates | src/app/pizza/components/pizza-form/pizza-form.component.ts:86-88 | removing an element from a list without duplicates leaves none |
| PizzaForm.SelectFlipsMembership | src/app/pizza/components/pizza-form/pizza-form.component.ts:92-98 | on a list without duplicates, a toggle flips the membership of the clicked topping and no other |
| PizzaForm.SubmitThenComplete | src/app/pizza/components/pizza-form/pizza-form.component.ts:109-116 | a valid submission, once its delayed callback runs, leaves the form's pizza last in the facade's list |
| PizzaForm.ResetHidesNameError | src/app/pizza/components/pizza-form/pizza-form.component.ts:74-79 | after a reset the name error is hidden, whatever the validator reports |
| ToppingsSelector.Exists | src/app/pizza/components/toppings-selector/toppings-selector.component.ts:54-56 | `exists(t)` holds exactly when `t` is among the selected toppings |
| ToppingsSelector.IsActive | src/app/pizza/components/toppings-selector/toppings-selector.component.ts:58-60 | `isActive(t)` equals `exists(t)`, which is membership |
| ToppingsSelector.OnSelect | src/app/pizza/components/toppings-selector/toppings-selector.component.ts:62-64 | a click emits exactly one value, the clicked topping |
| ToppingsSelector.Invalid | src/app/pizza/components/toppings-selector/toppings-selector.component.ts:45-52 | the error shows if and only if the group reports `noToppings` and the array is touched |
| ToppingsSelector.ClickFlipsHighlight | src/app/pizza/components/toppings-selector/toppings-selector.component.ts:54-64 | on a selection without duplicates, a click routed through the form flips the highlight of the clicked topping only |
| ToppingsSelector.ErrorVisibility | src/app/pizza/components/toppings-selector/toppings-selector.component.ts:45-52 | the error shows exactly when the group reports `noToppings` and the array is touched. Adding a topping touches the array, and after a reset the error is hidden |

## Left out

- Reference equality: `distinctUntilChanged` compares with `===`, which on arrays and objects is reference identity, and the model compares values. A spread such as `{ ..._state, loading: true }` copies the field references, and every facade slice projects a field (pizza.facade.ts:60-88), so an unchanged field is a repeat in both. The two comparisons part only where a field is built fresh. `updatePagination` builds a new pagination object (pizza.facade.ts:223): `pagination$` passes on a pagination equal in value to the previous one, where the model drops it. The `addPizza` completion's `[ ..._state.pizzas, value ]` (pizza.facade.ts:248) and `PizzaService.addPizza`'s `{ ...value, pizzas: [...] }` (pizza.service.ts:51) are fresh too, but each is one pizza longer than before, so both comparisons pass them on. `indexOf` runs on topping strings, where the two comparisons coincide.
- Synchronous re-entrancy: the constructors' subscriptions publish while `vm$` subscribers are still being served. The model treats each published value as delivered in full before the next one.
- PizzaFacade.VmAfterPublish: does not hold for `updatePizzaSearchCriteria` and `updatePagination` in the application. The loader's `combineLatest(pizzaSearch$, pagination$)` subscribes to the store before the `vm$` slices (pizza.facade.ts:125-136). A changed search or pagination therefore reaches the loader first, and its `updateState` publishes the loaded record with `loading: false` while the first `next` is still running. `vm$` gets that newer record first and the stale record with `loading: true` after it, so `vm$` ends on `loading: true` while `_state.loading` is false. `SampleFacade.VmOfInstance` has the same gap for any published record that changes the search or the pagination (sample.facade.ts:97-108). The model's `Runtime` delivers each value in full, so it does not show this order.
- Construction: the services return plain arrays, so each loader's `switchMap` emits at once and both loader completions run synchronously inside the constructor (pizza.facade.ts:125-149, sample.facade.ts:97-121). `PizzaFacade.NewFacade` and `SampleFacade.NewSampleFacade` only create the store; the model applies the completions afterwards as separate `PizzasLoaded` and `ToppingsLoaded` steps.
- The loaders' `switchMap` and the service call they wrap: `PizzaFacade.PizzasLoaded`, `PizzaFacade.ToppingsLoaded`, `SampleFacade.PizzasLoaded` and `SampleFacade.ToppingsLoaded` take the loaded list as a parameter. What exactly the service call delivers to the subscriber, and `switchMap` cancellation, are not modelled. For the same reason, a reload triggered by a search or pagination change is a separate step, not a consequence of the change.
- PizzaFacade.UpdatePizzaSearchCriteria and PizzaFacade.UpdatePagination: end their step with `loading` raised. In the application `findAllPizzas` returns a plain array, so when the search changes, and on every `updatePagination` because its pagination object is new, the reload runs synchronously inside the call (pizza.facade.ts:125-136), and `_state.loading` is already false again when the call returns. The model makes that reload the following `PizzaFacade.PizzasLoaded` step.
- Time: `delay(3000)` in `addPizza` is split into `AddPizzaStart` and `AddPizzaComplete`. `debounceTime(300)` in `buildSearchTermControl` is not modelled, and that control is modelled only through `UpdatePizzaSearchCriteria`.
- Forms: `buildForm`, `buildToppingsControl` and `ToppingsValidator` are not part of this model. Whether the form is invalid, whether the name has the `required` error, and whether the group has `noToppings` are inputs. Touched flags are booleans. The counter bump that `buildToppingsControl` wires to every change of the topping array (pizza.facade.ts:210-216) is not applied by `PizzaForm.AddTopping`, `PizzaForm.RemoveTopping`, `PizzaForm.SelectTopping`, `PizzaForm.ResetForm` or `PizzaForm.OnSubmit`; each such change is `PizzaFacade.EmitLatest` as a separate step. A reset name control holds `null`, and the model writes it as the empty string.
- PizzaForm.OnSubmit: states one publish by `addPizza` and a counter left as it was. In the application the three calls in `resetForm` (`clear`, `reset`, `form.reset`) each fire the topping array's value changes, so `emitLatest` publishes further records with a higher counter.
- PizzaForm.RemoveTopping: requires an index inside the list. Both of its callers satisfy this: `selectTopping` passes a found index, and the selected-pizza list emits positions it displays. The handling of negative or too-large indices inside the forms library is not modelled.
- PizzaForm.SelectTopping: requires the list to be shorter than the JavaScript array limit of 2^32 - 1, the most `push` can grow.
- ToppingsSelector.Exists: requires at most 2^32 - 1 selected toppings, the JavaScript array limit.
- Numbers: the counter and the pagination fields are unbounded integers. JavaScript's doubles lose precision above 2^53, and the model does not reproduce that. Decimal.IntToString covers integral numbers only: the exponent notation JavaScript uses from 10^21 on, fractions, `NaN` and `Infinity` are not modelled, and above 2^53 JavaScript prints the shortest digits that read back to the same double (`${2**64}` is `18446744073709552000`), where `Decimal.IntToString` prints every digit. So `UserUrl.BuildUserUrl` is exact for integral pagination values up to 2^53 in magnitude.
- PizzaService.Select: models `x[name]` for the two field names and `undefined` for every other name. Names of inherited object properties (such as `constructor`) are not modelled.
- Dead and unused code: the commented-out operation pipeline in `PizzaFacade`'s constructor, `createPizza`, and the `Observable` that `addPizza` builds and never subscribes to have no effect, so they are not modelled. `doOperation` builds an operation record and drops it, and `PizzaFacade.DoOperation` states that the record is dropped.
- `UserService` (the class in user.service.ts) is not part of this model. Only the free function `buildUserUrl` is.
- The pagination and pizza interface files are not part of this model. Their shapes are taken from how the core uses them.
- Angular dependency injection, change detection, templates and console logging are not modelled.

=== FILE: decimal.dfy ===
/** Decimal text for integral numbers, as a template literal `${n}` prints
    them, and the parser that reads such text back. */
module Decimal {
  import opened Wrappers

  predicate IsDigit(c: char) {
    '0' <= c <= '9'
  }

  predicate AllDigits(s: string) {
    forall i :: 0 <= i < |s| ==> IsDigit(s[i])
  }

  function DigitChar(d: nat): (c: char)
    requires d < 10
    ensures IsDigit(c)
  {
    "0123456789"[d]
  }

  function DigitValue(c: char): (d: nat)
    requires IsDigit(c)
    ensures d < 10
  {
    (c - '0') as nat
  }

  lemma DigitRoundTrip(d: nat)
    requires d < 10
    ensures DigitValue(DigitChar(d)) == d
  {
  }

  /** The shortest decimal spelling of `n`: no sign, no leading zero. */
  function NatToString(n: nat): (s: string)
    ensures |s| > 0 && AllDigits(s)
    ensures |s| > 1 ==> s[0] != '0'
    decreases n
  {
    if n < 10 then [DigitChar(n)]
    else
      var d := DigitChar(n % 10);
      var s := NatToString(n / 10) + [d];
      assert s[0] == NatToString(n / 10)[0];
      s
  }

  /** `${n}` for an integral number: a minus sign before negative values. */
  function IntToString(n: int): (s: string)
    ensures |s| > 0
    ensures forall i :: 0 <= i < |s| ==> s[i] != '&'
  {
    if n < 0 then "-" + NatToString(-n) else NatToString(n)
  }

  /** The value of a run of digits. */
  function DigitsValue(s: string): nat
    requires AllDigits(s)
    decreases |s|
  {
    if s == [] then 0
    else DigitsValue(s[..|s| - 1]) * 10 + DigitValue(s[|s| - 1])
  }

  /** Reads an optional minus sign followed by at least one digit. */
  function ParseInt(s: string): Option<int> {
    if |s| > 1 && s[0] == '-' && AllDigits(s[1..]) then Some(-(DigitsValue(s[1..]) as int))
    else if |s| > 0 && AllDigits(s) then Some(DigitsValue(s))
    else None
  }

  lemma {:induction false} NatRoundTrip(n: nat)
    ensures DigitsValue(NatToString(n)) == n
    decreases n
  {
    if n >= 10 {
      var s := NatToString(n);
      NatRoundTrip(n / 10);
      assert s[..|s| - 1] == NatToString(n / 10);
      DigitRoundTrip(n % 10);
    } else {
      DigitRoundTrip(n);
    }
  }

  /** Printing then parsing gives the number back. */
  lemma IntRoundTrip(n: int)
    ensures ParseInt(IntToString(n)) == Some(n)
  {
    if n < 0 {
      NatRoundTrip(-n);
      assert IntToString(n)[1..] == NatToString(-n);
    } else {
      NatRoundTrip(n);
    }
  }
}

=== FILE: facade.dfy ===
/** The generic `Facade<T>` of src/app/facade.ts. Unlike `PizzaFacade`,
    each instance keeps its own state record next to its store.

    `State<T>` is modelled as `State<R, X>`: the base fields of
    src/app/interfaces/state.ts for records of type `R`, plus `extra`, the
    fields a subclass's state type adds. */
module Facade {
  import opened Wrappers
  import opened Interfaces

  datatype State<R, X> = State(
    records: seq<R>,
    pagination: Pagination,
    operation: Option<Operation<R>>,
    loading: bool,
    counter: int,
    extra: X)

  /** A constructor argument: every base field the caller supplied (`None`
      when absent) and the subclass fields. */
  datatype StateArg<R, X> = StateArg(
    records: Option<seq<R>>,
    pagination: Option<Pagination>,
    operation: Option<Operation<R>>,
    loading: Option<bool>,
    counter: Option<int>,
    extra: X)

  /** The pagination of the file's default record `_state`. */
  const DefaultPagination: Pagination := Pagination(0, 5, DefaultPageSizes)

  /** An argument that supplies every field of `s`. */
  function Supplied<R, X>(s: State<R, X>): StateArg<R, X> {
    StateArg(Some(s.records), Some(s.pagination), s.operation, Some(s.loading), Some(s.counter), s.extra)
  }

  /** An instance: its `_state` and every value its store has held. */
  datatype Instance<R, X> = Instance(state: State<R, X>, published: seq<State<R, X>>)

  /** The store's latest value is the cached state. */
  ghost predicate Valid<R, X>(f: Instance<R, X>) {
    |f.published| > 0 && Last(f.published) == f.state
  }

  const MissingState: string := "state parameter undefined"

  /** `new Facade(state)`: throw on a missing argument; otherwise the
      default record overridden by every field the caller supplied, and a
      store seeded with it. */
  function Construct<R, X>(arg: Option<StateArg<R, X>>): (r: Result<Instance<R, X>, string>)
    ensures arg.None? <==> r.Failure?
    ensures r.Failure? ==> r.error == MissingState
    ensures r.Success? ==> Valid(r.value) && |r.value.published| == 1
    ensures r.Success? ==>
              var a := arg.value;
              var s := r.value.state;
              && (a.records.Some? ==> s.records == a.records.value)
              && (a.records.None? ==> s.records == [])
              && (a.pagination.Some? ==> s.pagination == a.pagination.value)
              && (a.pagination.None? ==> s.pagination == DefaultPagination)
              && s.operation == a.operation
              && (a.loading.Some? ==> s.loading == a.loading.value)
              && (a.loading.None? ==> !s.loading)
              && (a.counter.Some? ==> s.counter == a.counter.value)
              && (a.counter.None? ==> s.counter == 0)
              && s.extra == a.extra
  {
    if arg.None? then Failure(MissingState)
    else
      var a := arg.value;
      var state := State(a.records.GetOr([]), a.pagination.GetOr(DefaultPagination), a.operation,
                         a.loading.GetOr(false), a.counter.GetOr(0), a.extra);
      Success(Instance(state, [state]))
  }

  /** A caller that supplies every field gets exactly its record back. */
  lemma ConstructSupplied<R, X>(s: State<R, X>)
    ensures Construct(Some(Supplied(s))) == Success(Instance(s, [s]))
  {
  }

  /** `updateState(state)`: cache it, then push it into the store. */
  function UpdateState<R, X>(f: Instance<R, X>, state: State<R, X>): (r: Instance<R, X>)
    ensures Valid(r) && r.state == state
    ensures f.published <= r.published && |r.published| == |f.published| + 1
  {
    Instance(state, f.published + [state])
  }

  /** `getStateSnapshot()`: a shallow copy with its own pagination object. */
  function GetStateSnapshot<R, X>(f: Instance<R, X>): (snap: State<R, X>)
    ensures snap == f.state
  {
    var s := f.state;
    var p := s.pagination;
    State(s.records, Pagination(p.currentPage, p.selectedSize, p.pageSizes), s.operation,
          s.loading, s.counter, s.extra)
  }

  /** `emitLatest()`: republish with the counter bumped, nothing else
      changed. */
  function EmitLatest<R, X>(f: Instance<R, X>): (r: Instance<R, X>)
    ensures Valid(r)
    ensures r.state.counter == f.state.counter + 1
    ensures r.state.(counter := f.state.counter) == f.state
    ensures |r.published| == |f.published| + 1
    ensures r.published == f.published + [r.state]
  {
    UpdateState(f, f.state.(counter := f.state.counter + 1))
  }

  /** `emitLatest()` called `n` times. */
  function EmitLatestTimes<R, X>(f: Instance<R, X>, n: nat): Instance<R, X>
    decreases n
  {
    if n == 0 then f else EmitLatest(EmitLatestTimes(f, n - 1))
  }

  /** `n` calls raise the counter by exactly `n`, publish `n` values after
      the ones already published and change nothing else. */
  lemma {:induction false} EmitLatestTimesCounts<R, X>(f: Instance<R, X>, n: nat)
    ensures EmitLatestTimes(f, n).state.counter == f.state.counter + n
    ensures EmitLatestTimes(f, n).state.(counter := f.state.counter) == f.state
    ensures |EmitLatestTimes(f, n).published| == |f.published| + n
    ensures f.published <= EmitLatestTimes(f, n).published
    decreases n
  {
    if n > 0 {
      EmitLatestTimesCounts(f, n - 1);
    }
  }
}

=== FILE: interfaces.dfy ===
/** The shared record types of the application: pizzas, toppings, pagination
    and the CRUD operation intent. The pizza and pagination interface files
    are not part of this model; their fields are the ones the core reads. */
module Interfaces {
  import opened Wrappers

  /** A topping is a plain string drawn from a catalogue. */
  type Topping = string

  datatype Pizza = Pizza(name: string, toppings: seq<Topping>)

  /** Page position, chosen page size and the sizes offered to the user. */
  datatype Pagination = Pagination(currentPage: int, selectedSize: int, pageSizes: seq<int>)

  /** The page-size invariant a pagination is meant to keep: the chosen
      size is one of the offered sizes. Nothing in the code enforces it. */
  predicate SizeAllowed(p: Pagination) {
    p.selectedSize in p.pageSizes
  }

  /** The four mutation intents. */
  datatype OperationType = Create | Read | Update | Delete

  /** An operation record; `None` stands for the `null` the initial states
      store in both fields. */
  datatype Operation<T> = Operation(kind: Option<OperationType>, model: Option<T>)

  /** The page sizes every initial state offers. */
  const DefaultPageSizes: seq<int> := [5, 10, 20, 50]

  /** True when `xs` holds no value twice. */
  predicate NoDuplicates<T(==)>(xs: seq<T>) {
    forall i, j :: 0 <= i < j < |xs| ==> xs[i] != xs[j]
  }
}

=== FILE: jsarray.dfy ===
/** The JavaScript array primitives the components lean on: `indexOf`,
    `splice(i, 1)` (what `removeAt` does), and the `!!~index` membership
    idiom, whose `~` first converts its operand with ECMAScript's ToInt32. */
module JsArray {

  /** A JavaScript array holds at most 2^32 - 1 elements. */
  const MaxLength: int := 0xFFFF_FFFF

  /** `xs.indexOf(x)` with `===`: the first position of `x`, or -1. */
  function IndexOf<T(==)>(xs: seq<T>, x: T): (i: int)
    ensures -1 <= i < |xs|
    ensures i == -1 <==> x !in xs
    ensures 0 <= i ==> xs[i] == x && x !in xs[..i]
    decreases |xs|
  {
    if xs == [] then -1
    else if xs[0] == x then 0
    else
      var i := IndexOf(xs[1..], x);
      assert 0 <= i ==> xs[..i + 1] == [xs[0]] + xs[1..][..i];
      if i == -1 then -1 else i + 1
  }

  /** ECMAScript ToInt32 on an integral number: wrap modulo 2^32 into the
      signed 32-bit range. */
  function ToInt32(n: int): (r: int)
    ensures -0x8000_0000 <= r < 0x8000_0000
    ensures (r - n) % 0x1_0000_0000 == 0
  {
    var m := n % 0x1_0000_0000;
    if m >= 0x8000_0000 then m - 0x1_0000_0000 else m
  }

  /** The bitwise complement `~n`. */
  function BitNot(n: int): (r: int)
    ensures -0x8000_0000 <= r < 0x8000_0000
    ensures (r + n + 1) % 0x1_0000_0000 == 0
  {
    -ToInt32(n) - 1
  }

  /** JavaScript truthiness of a number (integral, so never NaN). */
  predicate Truthy(n: int) {
    n != 0
  }

  /** `!!~i`, the idiom the components use to ask "was it found?". */
  function Found(i: int): (found: bool)
    ensures found <==> i % 0x1_0000_0000 != 0xFFFF_FFFF
  {
    Truthy(BitNot(i))
  }

  /** On every value `indexOf` can return for an array, `!!~i` holds
      exactly when `i` is not -1. */
  lemma FoundIffPresent(i: int)
    requires -1 <= i < MaxLength
    ensures Found(i) <==> i != -1
  {
    if 0 <= i {
      assert i % 0x1_0000_0000 == i;
    }
  }

  /** The idiom is only sound because of the array-length bound: the next
      index, 2^32 - 1, wraps to -1 and would read as "absent". */
  lemma FoundFailsPastBound()
    ensures !Found(MaxLength)
  {
    assert MaxLength % 0x1_0000_0000 == MaxLength;
  }

  /** Membership through `indexOf` and the idiom, as the components write it. */
  lemma FoundIndexOfIffIn<T>(xs: seq<T>, x: T)
    requires |xs| <= MaxLength
    ensures Found(IndexOf(xs, x)) <==> x in xs
  {
    FoundIffPresent(IndexOf(xs, x));
  }

  /** `splice(i, 1)` with an in-range index: drop element `i`, keep the
      order of the rest. */
  function RemoveAt<T>(xs: seq<T>, i: int): (r: seq<T>)
    requires 0 <= i < |xs|
    ensures |r| == |xs| - 1
    ensures forall j :: 0 <= j < i ==> r[j] == xs[j]
    ensures forall j :: i <= j < |r| ==> r[j] == xs[j + 1]
    ensures multiset(r) == multiset(xs) - multiset{xs[i]}
  {
    assert xs == xs[..i] + [xs[i]] + xs[i + 1..];
    xs[..i] + xs[i + 1..]
  }
}

=== FILE: pizzafacade.dfy ===
/** `PizzaFacade` of src/app/pizza/pizza.facade.ts.

    The file keeps ONE state record in a module-level variable, `_state`,
    shared by every `PizzaFacade` instance; each instance owns a store that
    starts from whatever `_state` holds when the instance is created. Every
    mutator builds a new record by shallow-merging a few fields into `_state`
    and publishes it through `updateState`, which both replaces `_state` and
    pushes the record into the calling instance's store.

    The model is a `Runtime`: the shared record plus, per instance, the
    values its store has published. An instance is named by its index. */
module PizzaFacade {
  import opened Wrappers
  import opened Interfaces
  import Streams

  datatype PizzaState = PizzaState(
    pizzas: seq<Pizza>,
    toppings: seq<Topping>,
    pizzaSearch: string,
    toppingSearch: string,
    pagination: Pagination,
    operation: Option<Operation<Pizza>>,
    loading: bool,
    counter: int)

  /** The value `_state` holds when the file is loaded. */
  const InitialState: PizzaState := PizzaState(
    [], [], "", "",
    Pagination(0, 5, DefaultPageSizes),
    Some(Operation(None, None)),
    false, 0)

  /** The initial record: nothing loaded, first page of five, the page size
      among the offered ones, not loading, counter at zero. */
  lemma InitialStateFacts()
    ensures InitialState.pizzas == [] && InitialState.toppings == []
    ensures InitialState.pizzaSearch == "" && InitialState.toppingSearch == ""
    ensures InitialState.pagination.currentPage == 0 && InitialState.pagination.selectedSize == 5
    ensures InitialState.pagination.pageSizes == [5, 10, 20, 50]
    ensures SizeAllowed(InitialState.pagination)
    ensures !InitialState.loading && InitialState.counter == 0
  {
  }

  // ---------------------------------------------------------------------
  // Fields, for "nothing else changes"
  // ---------------------------------------------------------------------

  datatype Field =
    | PizzasField | ToppingsField | PizzaSearchField | ToppingSearchField
    | PaginationField | OperationField | LoadingField | CounterField

  predicate AgreeOn(a: PizzaState, b: PizzaState, f: Field) {
    match f
    case PizzasField => a.pizzas == b.pizzas
    case ToppingsField => a.toppings == b.toppings
    case PizzaSearchField => a.pizzaSearch == b.pizzaSearch
    case ToppingSearchField => a.toppingSearch == b.toppingSearch
    case PaginationField => a.pagination == b.pagination
    case OperationField => a.operation == b.operation
    case LoadingField => a.loading == b.loading
    case CounterField => a.counter == b.counter
  }

  /** Every field outside `changed` is the same in `a` and `b`. */
  predicate OnlyChanged(a: PizzaState, b: PizzaState, changed: set<Field>) {
    forall f :: f !in changed ==> AgreeOn(a, b, f)
  }

  // ---------------------------------------------------------------------
  // The shared record and the instances' stores
  // ---------------------------------------------------------------------

  /** `current` is the module-level `_state`; `stores[i]` is every value
      instance i's store has held, oldest first. */
  datatype Runtime = Runtime(current: PizzaState, stores: seq<seq<PizzaState>>)

  /** The file just loaded: no instance yet. */
  const Boot: Runtime := Runtime(InitialState, [])

  /** `after` is `before` with `s` published by instance `id`: `_state` is
      `s`, instance `id`'s store gained `s`, no other store moved. */
  predicate Publishes(before: Runtime, after: Runtime, id: nat, s: PizzaState) {
    && id < |before.stores| == |after.stores|
    && after.current == s
    && after.stores[id] == before.stores[id] + [s]
    && forall j :: 0 <= j < |before.stores| && j != id ==> after.stores[j] == before.stores[j]
  }

  /** `new PizzaFacade(...)`: a store created on the current `_state`. The
      loader completions the constructor triggers are later steps. */
  function NewFacade(rt: Runtime): (r: (Runtime, nat))
    ensures r.1 == |rt.stores| && r.0.stores == rt.stores + [[rt.current]]
    ensures r.0.current == rt.current
  {
    (rt.(stores := rt.stores + [[rt.current]]), |rt.stores|)
  }

  /** `updateState(state)`: `_state = state`, then `store.next(state)`. */
  function UpdateState(rt: Runtime, id: nat, state: PizzaState): (r: Runtime)
    requires id < |rt.stores|
    ensures Publishes(rt, r, id, state)
    ensures Last(r.stores[id]) == r.current
  {
    Runtime(state, rt.stores[id := rt.stores[id] + [state]])
  }

  /** `getStateSnapshot()`: a shallow copy with its own pagination object. */
  function GetStateSnapshot(rt: Runtime): (snap: PizzaState)
    ensures snap == rt.current
  {
    var s := rt.current;
    var p := s.pagination;
    PizzaState(s.pizzas, s.toppings, s.pizzaSearch, s.toppingSearch,
               Pagination(p.currentPage, p.selectedSize, p.pageSizes),
               s.operation, s.loading, s.counter)
  }

  /** `emitLatest()`: republish with the counter bumped. */
  function EmitLatest(rt: Runtime, id: nat): (r: Runtime)
    requires id < |rt.stores|
    ensures Publishes(rt, r, id, r.current)
    ensures r.current.counter == rt.current.counter + 1
    ensures OnlyChanged(rt.current, r.current, {CounterField})
  {
    var s := rt.current;
    UpdateState(rt, id, s.(counter := s.counter + 1))
  }

  /** `updatePizzaSearchCriteria(pizzaSearch)`. */
  function UpdatePizzaSearchCriteria(rt: Runtime, id: nat, pizzaSearch: string): (r: Runtime)
    requires id < |rt.stores|
    ensures Publishes(rt, r, id, r.current)
    ensures r.current.pizzaSearch == pizzaSearch && r.current.loading
    ensures OnlyChanged(rt.current, r.current, {PizzaSearchField, LoadingField})
  {
    UpdateState(rt, id, rt.current.(pizzaSearch := pizzaSearch, loading := true))
  }

  /** `updatePagination(selectedSize, currentPage = 0)`; `None` stands for
      an omitted (or `undefined`) page. */
  function UpdatePagination(rt: Runtime, id: nat, selectedSize: int, currentPage: Option<int>): (r: Runtime)
    requires id < |rt.stores|
    ensures Publishes(rt, r, id, r.current)
    ensures r.current.pagination.selectedSize == selectedSize
    ensures r.current.pagination.currentPage == (if currentPage.Some? then currentPage.value else 0)
    ensures r.current.pagination.pageSizes == rt.current.pagination.pageSizes
    ensures r.current.loading
    ensures OnlyChanged(rt.current, r.current, {PaginationField, LoadingField})
    ensures SizeAllowed(r.current.pagination) <==> selectedSize in rt.current.pagination.pageSizes
  {
    var pagination := rt.current.pagination.(currentPage := currentPage.GetOr(0), selectedSize := selectedSize);
    UpdateState(rt, id, rt.current.(pagination := pagination, loading := true))
  }

  /** `doOperation(type, model)`: sets `loading`; the operation record it
      builds is dropped, so the `operation` field keeps its value. */
  function DoOperation(rt: Runtime, id: nat, kind: OperationType, model: Pizza): (r: Runtime)
    requires id < |rt.stores|
    ensures Publishes(rt, r, id, r.current)
    ensures r.current.loading
    ensures r.current.operation == rt.current.operation
    ensures OnlyChanged(rt.current, r.current, {LoadingField})
  {
    UpdateState(rt, id, rt.current.(loading := true))
  }

  /** The delayed second half of an `addPizza` call: which instance made
      it and the pizza it carries. */
  datatype PendingAdd = PendingAdd(facade: nat, pizza: Pizza)

  /** `addPizza(pizza)`, first phase: publish `loading = true` and start
      the delayed completion. */
  function AddPizzaStart(rt: Runtime, id: nat, pizza: Pizza): (r: (Runtime, PendingAdd))
    requires id < |rt.stores|
    ensures Publishes(rt, r.0, id, r.0.current)
    ensures r.0.current.loading && r.0.current.pizzas == rt.current.pizzas
    ensures OnlyChanged(rt.current, r.0.current, {LoadingField})
    ensures r.1 == PendingAdd(id, pizza)
  {
    (UpdateState(rt, id, rt.current.(loading := true)), PendingAdd(id, pizza))
  }

  /** `addPizza(pizza)`, second phase: the delayed callback appends the
      pizza to whatever `_state` holds when it runs and clears `loading`. */
  function AddPizzaComplete(rt: Runtime, pending: PendingAdd): (r: Runtime)
    requires pending.facade < |rt.stores|
    ensures Publishes(rt, r, pending.facade, r.current)
    ensures rt.current.pizzas <= r.current.pizzas
    ensures |r.current.pizzas| == |rt.current.pizzas| + 1 && Last(r.current.pizzas) == pending.pizza
    ensures !r.current.loading
    ensures OnlyChanged(rt.current, r.current, {PizzasField, LoadingField})
  {
    var pizzas := rt.current.pizzas + [pending.pizza];
    UpdateState(rt, pending.facade, rt.current.(pizzas := pizzas, loading := false))
  }

  /** The pizzas loader's completion: replace the pizzas, clear `loading`. */
  function PizzasLoaded(rt: Runtime, id: nat, pizzas: seq<Pizza>): (r: Runtime)
    requires id < |rt.stores|
    ensures Publishes(rt, r, id, r.current)
    ensures r.current.pizzas == pizzas && !r.current.loading
    ensures OnlyChanged(rt.current, r.current, {PizzasField, LoadingField})
  {
    UpdateState(rt, id, rt.current.(pizzas := pizzas, loading := false))
  }

  /** The toppings loader's completion: replace the toppings, clear
      `loading`. */
  function ToppingsLoaded(rt: Runtime, id: nat, toppings: seq<Topping>): (r: Runtime)
    requires id < |rt.stores|
    ensures Publishes(rt, r, id, r.current)
    ensures r.current.toppings == toppings && !r.current.loading
    ensures OnlyChanged(rt.current, r.current, {ToppingsField, LoadingField})
  {
    UpdateState(rt, id, rt.current.(toppings := toppings, loading := false))
  }

  // ---------------------------------------------------------------------
  // Scenarios
  // ---------------------------------------------------------------------

  /** Adding a pizza to a fresh facade: right after the call the snapshot
      shows `loading` and no pizza; after the completion, the pizza and
      `loading` cleared. */
  lemma AddPizzaScenario(pizza: Pizza)
    ensures var (rt0, id) := NewFacade(Boot);
            var (rt1, pending) := AddPizzaStart(rt0, id, pizza);
            var rt2 := AddPizzaComplete(rt1, pending);
            && GetStateSnapshot(rt1).loading && GetStateSnapshot(rt1).pizzas == []
            && !GetStateSnapshot(rt2).loading && GetStateSnapshot(rt2).pizzas == [pizza]
  {
    var (rt0, id) := NewFacade(Boot);
    var (rt1, pending) := AddPizzaStart(rt0, id, pizza);
    var rt2 := AddPizzaComplete(rt1, pending);
    assert rt1.current.pizzas == [];
    assert rt2.current.pizzas == [] + [pizza];
  }

  /** A pagination change made while an add is in flight survives the
      add's completion, because the completion merges into the record
      current at that time. */
  lemma PaginationSurvivesAdd(rt: Runtime, id: nat, pizza: Pizza, size: int, page: int)
    requires id < |rt.stores|
    ensures var (rt1, pending) := AddPizzaStart(rt, id, pizza);
            var rt2 := UpdatePagination(rt1, id, size, Some(page));
            var rt3 := AddPizzaComplete(rt2, pending);
            && rt3.current.pagination == Pagination(page, size, rt.current.pagination.pageSizes)
            && rt3.current.pizzas == rt.current.pizzas + [pizza]
            && !rt3.current.loading
  {
    var (rt1, pending) := AddPizzaStart(rt, id, pizza);
    var rt2 := UpdatePagination(rt1, id, size, Some(page));
    var rt3 := AddPizzaComplete(rt2, pending);
    assert AgreeOn(rt1.current, rt2.current, PizzasField);
    assert AgreeOn(rt2.current, rt3.current, PaginationField);
  }

  /** Two adds in flight at once both land, in completion order. */
  lemma OverlappingAddsKeepBoth(rt: Runtime, id: nat, a: Pizza, b: Pizza)
    requires id < |rt.stores|
    ensures var (rt1, pa) := AddPizzaStart(rt, id, a);
            var (rt2, pb) := AddPizzaStart(rt1, id, b);
            var rt3 := AddPizzaComplete(rt2, pa);
            var rt4 := AddPizzaComplete(rt3, pb);
            rt4.current.pizzas == rt.current.pizzas + [a, b] && !rt4.current.loading
  {
    var (rt1, pa) := AddPizzaStart(rt, id, a);
    var (rt2, pb) := AddPizzaStart(rt1, id, b);
    var rt3 := AddPizzaComplete(rt2, pa);
    var rt4 := AddPizzaComplete(rt3, pb);
    assert rt2.current.pizzas == rt.current.pizzas;
    assert rt3.current.pizzas == rt.current.pizzas + [a];
    assert rt4.current.pizzas == rt.current.pizzas + [a] + [b];
  }

  /** A reload of the pizzas after an add replaces the list wholesale: the
      added pizza is gone. */
  lemma ReloadDropsAddedPizza(rt: Runtime, id: nat, pizza: Pizza, catalogue: seq<Pizza>)
    requires id < |rt.stores|
    ensures var (rt1, pending) := AddPizzaStart(rt, id, pizza);
            var rt2 := AddPizzaComplete(rt1, pending);
            PizzasLoaded(rt2, id, catalogue).current.pizzas == catalogue
  {
  }

  /** `_state` is shared: a second instance starts from what the first
      one last published, and afterwards the first instance's store lags
      behind `_state` once the second one publishes. */
  lemma InstancesShareState()
    ensures var (rt0, a) := NewFacade(Boot);
            var rt1 := EmitLatest(rt0, a);
            var (rt2, b) := NewFacade(rt1);
            var rt3 := EmitLatest(rt2, b);
            && rt2.stores[b] == [InitialState.(counter := 1)]
            && rt3.current.counter == 2
            && Last(rt3.stores[a]).counter == 1
  {
    var (rt0, a) := NewFacade(Boot);
    var rt1 := EmitLatest(rt0, a);
    assert rt1.current == InitialState.(counter := 1);
    var (rt2, b) := NewFacade(rt1);
    var rt3 := EmitLatest(rt2, b);
    assert rt3.stores[a] == rt2.stores[a] == rt1.stores[a];
  }

  // ---------------------------------------------------------------------
  // Slices and the view model
  // ---------------------------------------------------------------------

  /** `pizzas$`. */
  function PizzasSlice(trace: seq<PizzaState>): (r: seq<seq<Pizza>>)
    ensures Streams.NoRepeats(r)
    ensures trace != [] ==> r != [] && Last(r) == Last(trace).pizzas
  {
    Streams.Slice(trace, (s: PizzaState) => s.pizzas)
  }

  /** `toppings$`. */
  function ToppingsSlice(trace: seq<PizzaState>): (r: seq<seq<Topping>>)
    ensures Streams.NoRepeats(r)
    ensures trace != [] ==> r != [] && Last(r) == Last(trace).toppings
  {
    Streams.Slice(trace, (s: PizzaState) => s.toppings)
  }

  /** `pizzaSearch$`. */
  function PizzaSearchSlice(trace: seq<PizzaState>): (r: seq<string>)
    ensures Streams.NoRepeats(r)
    ensures trace != [] ==> r != [] && Last(r) == Last(trace).pizzaSearch
  {
    Streams.Slice(trace, (s: PizzaState) => s.pizzaSearch)
  }

  /** `toppingSearch$`. */
  function ToppingSearchSlice(trace: seq<PizzaState>): (r: seq<string>)
    ensures Streams.NoRepeats(r)
    ensures trace != [] ==> r != [] && Last(r) == Last(trace).toppingSearch
  {
    Streams.Slice(trace, (s: PizzaState) => s.toppingSearch)
  }

  /** `pagination$`. */
  function PaginationSlice(trace: seq<PizzaState>): (r: seq<Pagination>)
    ensures Streams.NoRepeats(r)
    ensures trace != [] ==> r != [] && Last(r) == Last(trace).pagination
  {
    Streams.Slice(trace, (s: PizzaState) => s.pagination)
  }

  /** `operation$`. */
  function OperationSlice(trace: seq<PizzaState>): (r: seq<Option<Operation<Pizza>>>)
    ensures Streams.NoRepeats(r)
    ensures trace != [] ==> r != [] && Last(r) == Last(trace).operation
  {
    Streams.Slice(trace, (s: PizzaState) => s.operation)
  }

  /** `loading$`: no dedup, one value per published state. */
  function LoadingSlice(trace: seq<PizzaState>): (r: seq<bool>)
    ensures |r| == |trace|
    ensures forall i :: 0 <= i < |trace| ==> r[i] == trace[i].loading
  {
    Streams.MapSeq(trace, (s: PizzaState) => s.loading)
  }

  /** `counter$`. */
  function CounterSlice(trace: seq<PizzaState>): (r: seq<int>)
    ensures Streams.NoRepeats(r)
    ensures trace != [] ==> r != [] && Last(r) == Last(trace).counter
  {
    Streams.Slice(trace, (s: PizzaState) => s.counter)
  }

  /** The field slice k of `vm$` carries, in `combineLatest` argument order. */
  function SliceField(k: nat): Field
    requires k < 8
  {
    [PizzasField, ToppingsField, PizzaSearchField, ToppingSearchField,
     PaginationField, OperationField, LoadingField, CounterField][k]
  }

  predicate SameSlice(a: PizzaState, b: PizzaState, k: nat) {
    k < 8 && AgreeOn(a, b, SliceField(k))
  }

  /** The eight slices `vm$` combines; all but `loading$` (index 6) drop
      repeats. */
  const VmSlices: Streams.Slices<PizzaState> := Streams.Slices(8, (k: nat) => k != 6, SameSlice)

  /** The record `vm$`'s projection builds from the slices' latest values:
      slot k is the state whose field k is the latest value of slice k, and
      the record takes field k from it. */
  function Compose(slots: seq<PizzaState>): (r: PizzaState)
    requires |slots| == 8
    ensures forall k :: 0 <= k < 8 ==> SameSlice(r, slots[k], k)
  {
    PizzaState(slots[0].pizzas, slots[1].toppings, slots[2].pizzaSearch, slots[3].toppingSearch,
               slots[4].pagination, slots[5].operation, slots[6].loading, slots[7].counter)
  }

  /** The records `vm$` emits for a sequence of slot vectors. */
  function ComposeAll(vectors: seq<seq<PizzaState>>): (r: seq<PizzaState>)
    requires forall e :: e in vectors ==> |e| == 8
    ensures |r| == |vectors|
    ensures forall i :: 0 <= i < |vectors| ==> r[i] == Compose(vectors[i])
  {
    seq(|vectors|, i requires 0 <= i < |vectors| => Compose(vectors[i]))
  }

  /** `vm$` for a store that publishes `trace`, subscribed before the first
      value: one record per `combineLatest` emission. It emits only once
      every slice has a value, and then first the first published state; it
      emits at least once per published state (`loading$` never drops
      one); its latest record equals the latest published state field for
      field. */
  function Vm(trace: seq<PizzaState>): (vm: seq<PizzaState>)
    ensures trace != [] ==> |vm| >= |trace| && vm[0] == trace[0] && Last(vm) == Last(trace)
  {
    var vectors := Streams.Run(VmSlices, Streams.NoneYet(8), trace).1;
    var vm := ComposeAll(vectors);
    if trace == [] then vm
    else
      VmLatest(trace);
      VmFirst(trace);
      ComposeAllEnds(vectors);
      vm
  }

  /** The first and last records of a non-empty `ComposeAll` are the
      projections of the first and last vectors. */
  lemma ComposeAllEnds(vectors: seq<seq<PizzaState>>)
    requires vectors != [] && forall e :: e in vectors ==> |e| == 8
    ensures ComposeAll(vectors)[0] == Compose(vectors[0])
    ensures Last(ComposeAll(vectors)) == Compose(Last(vectors))
  {
  }

  /** Slots that agree with `s` slice by slice compose to `s`. */
  lemma ComposeAgreeing(slots: Streams.Slots<PizzaState>, s: PizzaState)
    requires |slots| == 8
    requires forall j :: 0 <= j < 8 ==> Streams.SlotAgrees(VmSlices, slots[j], s, j)
    ensures Streams.AllSome(slots) && Compose(Streams.Values(slots)) == s
  {
    assert Streams.AllSome(slots);
    var v := Streams.Values(slots);
    forall j | 0 <= j < 8
      ensures v[j] == s || AgreeOn(v[j], s, SliceField(j))
    {
      assert Streams.SlotAgrees(VmSlices, slots[j], s, j);
    }
    assert AgreeOn(v[0], s, PizzasField);
    assert AgreeOn(v[1], s, ToppingsField);
    assert AgreeOn(v[2], s, PizzaSearchField);
    assert AgreeOn(v[3], s, ToppingSearchField);
    assert AgreeOn(v[4], s, PaginationField);
    assert AgreeOn(v[5], s, OperationField);
    assert AgreeOn(v[6], s, LoadingField);
    assert AgreeOn(v[7], s, CounterField);
  }

  /** The combined stream emits at least once per published state, and its
      last vector composes to the latest state. */
  lemma VmLatest(trace: seq<PizzaState>)
    requires trace != []
    ensures var vectors := Streams.Run(VmSlices, Streams.NoneYet(8), trace).1;
            |vectors| >= |trace| && Compose(Last(vectors)) == Last(trace)
  {
    var none: Streams.Slots<PizzaState> := Streams.NoneYet(8);
    var run := Streams.Run(VmSlices, none, trace);
    assert !VmSlices.deduped(6);
    Streams.RunLatest(VmSlices, none, trace);
    ComposeAgreeing(run.0, Last(trace));
  }

  /** The first vector the combined stream emits composes to the first
      published state. */
  lemma VmFirst(trace: seq<PizzaState>)
    requires trace != []
    ensures var vectors := Streams.Run(VmSlices, Streams.NoneYet(8), trace).1;
            vectors != [] && Compose(vectors[0]) == trace[0]
  {
    var run := Streams.Run(VmSlices, Streams.NoneYet(8), trace);
    Streams.RunFirst(VmSlices, trace);
    var first := run.1[0];
    assert first[0] == trace[0] && first[1] == trace[0] && first[2] == trace[0] && first[3] == trace[0];
    assert first[4] == trace[0] && first[5] == trace[0] && first[6] == trace[0] && first[7] == trace[0];
  }

  /** After any publish by instance `id`, delivered in full before the next
      one, the latest record of that instance's `vm$` is `_state`. */
  lemma VmAfterPublish(before: Runtime, after: Runtime, id: nat)
    requires Publishes(before, after, id, after.current)
    ensures Vm(after.stores[id]) != [] && Last(Vm(after.stores[id])) == after.current
  {
    assert after.stores[id] != [] && Last(after.stores[id]) == after.current;
  }
}

=== FILE: pizzaform.dfy ===
/** `PizzaFormComponent` of
    src/app/pizza/components/pizza-form/pizza-form.component.ts: the
    topping list the form edits, the name error, and submission into
    `PizzaFacade.addPizza`. The form's validators live in code this model
    does not include, so whether the form as a whole is invalid, and
    whether the name control carries the `required` error, are inputs. */
module PizzaForm {
  import opened Wrappers
  import opened Interfaces
  import JsArray
  import PizzaFacade

  /** The form: the name control, the `toppings` form array, and whether
      each has been touched. A reset name (`null`) is the empty string. */
  datatype FormModel = FormModel(name: string, nameTouched: bool, toppings: seq<Topping>, toppingsTouched: bool)

  /** `form.value`, the pizza the form describes. */
  function Value(f: FormModel): (p: Pizza)
    ensures p.name == f.name && p.toppings == f.toppings
  {
    Pizza(f.name, f.toppings)
  }

  /** The `invalid` getter: the name error is shown only when the name has
      the `required` error and has been touched. */
  function NameErrorShown(f: FormModel, nameRequired: bool): (shown: bool)
    ensures shown ==> nameRequired && f.nameTouched
    ensures !f.nameTouched ==> !shown
    ensures nameRequired && f.nameTouched ==> shown
  {
    nameRequired && f.nameTouched
  }

  /** `addTopping(topping)`: push a control for it and mark the array
      touched. */
  function AddTopping(f: FormModel, t: Topping): (r: FormModel)
    ensures r.toppings == f.toppings + [t] && r.toppingsTouched
    ensures r.name == f.name && r.nameTouched == f.nameTouched
  {
    f.(toppings := f.toppings + [t], toppingsTouched := true)
  }

  /** `removeTopping(index)`: `removeAt(index)` on the array; the touched
      flag is left alone. */
  function RemoveTopping(f: FormModel, index: int): (r: FormModel)
    requires 0 <= index < |f.toppings|
    ensures |r.toppings| == |f.toppings| - 1
    ensures r.toppings[..index] == f.toppings[..index] && r.toppings[index..] == f.toppings[index + 1..]
    ensures multiset(r.toppings) == multiset(f.toppings) - multiset{f.toppings[index]}
    ensures r.(toppings := f.toppings) == f
  {
    f.(toppings := JsArray.RemoveAt(f.toppings, index))
  }

  /** `selectTopping(topping)`: look the topping up with `indexOf`; if
      `!!~index`, remove it at that index, otherwise add it. A JavaScript
      array one short of its maximal length is the most `push` can
      grow. */
  function SelectTopping(f: FormModel, t: Topping): (r: FormModel)
    requires |f.toppings| < JsArray.MaxLength
    ensures t !in f.toppings ==> r == AddTopping(f, t)
    ensures t in f.toppings ==>
              exists i :: 0 <= i < |f.toppings| && f.toppings[i] == t && t !in f.toppings[..i] &&
                r.toppings == f.toppings[..i] + f.toppings[i + 1..] && r.toppingsTouched == f.toppingsTouched
    ensures multiset(r.toppings) ==
              if t in f.toppings then multiset(f.toppings) - multiset{t} else multiset(f.toppings) + multiset{t}
    ensures r.name == f.name && r.nameTouched == f.nameTouched
  {
    var index := JsArray.IndexOf(f.toppings, t);
    JsArray.FoundIffPresent(index);
    if JsArray.Found(index) then
      var r := RemoveTopping(f, index);
      assert r.toppings == r.toppings[..index] + r.toppings[index..];
      r
    else
      assert multiset(f.toppings + [t]) == multiset(f.toppings) + multiset{t};
      AddTopping(f, t)
  }

  /** `resetForm()`: empty the array, then reset the array and the form, so
      nothing is touched and the name is cleared. */
  function ResetForm(f: FormModel): (r: FormModel)
    ensures r.toppings == [] && r.name == ""
    ensures !r.nameTouched && !r.toppingsTouched
  {
    FormModel("", false, [], false)
  }

  /** `onSubmit()`: nothing at all when the form is invalid; otherwise
      start `addPizza` with the form's value and reset the form. The
      result is the form, the runtime, and the add left in flight. */
  function OnSubmit(f: FormModel, formInvalid: bool, rt: PizzaFacade.Runtime, id: nat)
    : (r: (FormModel, PizzaFacade.Runtime, Option<PizzaFacade.PendingAdd>))
    requires id < |rt.stores|
    ensures formInvalid ==> r == (f, rt, None)
    ensures !formInvalid ==>
              && r.2 == Some(PizzaFacade.PendingAdd(id, Pizza(f.name, f.toppings)))
              && r.0 == ResetForm(f)
              && r.0.toppings == [] && r.0.name == "" && !r.0.nameTouched && !r.0.toppingsTouched
              && PizzaFacade.OnlyChanged(rt.current, r.1.current, {PizzaFacade.LoadingField})
              && PizzaFacade.Publishes(rt, r.1, id, r.1.current)
              && r.1.current.loading && r.1.current.pizzas == rt.current.pizzas
  {
    if formInvalid then (f, rt, None)
    else
      var (rt', pending) := PizzaFacade.AddPizzaStart(rt, id, Value(f));
      (ResetForm(f), rt', Some(pending))
  }

  // ---------------------------------------------------------------------
  // Properties of the toggle
  // ---------------------------------------------------------------------

  /** Selecting an absent topping twice gives back the topping list it
      started from. */
  lemma ToggleAbsentTwice(f: FormModel, t: Topping)
    requires |f.toppings| + 1 < JsArray.MaxLength
    requires t !in f.toppings
    ensures SelectTopping(SelectTopping(f, t), t).toppings == f.toppings
    ensures SelectTopping(SelectTopping(f, t), t).name == f.name
  {
    var g := SelectTopping(f, t);
    assert g.toppings == f.toppings + [t];
    var i := JsArray.IndexOf(g.toppings, t);
    assert g.toppings[|f.toppings|] == t;
    assert forall j :: 0 <= j < |f.toppings| ==> g.toppings[j] == f.toppings[j] != t;
    assert i == |f.toppings|;
    JsArray.FoundIffPresent(i);
    assert g.toppings[..i] == f.toppings;
  }

  /** A selection without duplicates keeps none after a toggle. */
  lemma SelectKeepsNoDuplicates(f: FormModel, t: Topping)
    requires |f.toppings| < JsArray.MaxLength
    requires NoDuplicates(f.toppings)
    ensures NoDuplicates(SelectTopping(f, t).toppings)
  {
    var xs := f.toppings;
    var r := SelectTopping(f, t).toppings;
    if t in xs {
      var i := JsArray.IndexOf(xs, t);
      JsArray.FoundIffPresent(i);
      assert r == JsArray.RemoveAt(xs, i);
      RemoveAtNoDuplicates(xs, i);
    } else {
      assert r == xs + [t];
    }
  }

  lemma RemoveAtNoDuplicates(xs: seq<Topping>, i: int)
    requires 0 <= i < |xs| && NoDuplicates(xs)
    ensures NoDuplicates(JsArray.RemoveAt(xs, i))
  {
    var r := JsArray.RemoveAt(xs, i);
    forall a, b | 0 <= a < b < |r|
      ensures r[a] != r[b]
    {
      var a' := if a < i then a else a + 1;
      var b' := if b < i then b else b + 1;
      assert r[a] == xs[a'] && r[b] == xs[b'];
    }
  }

  /** On a selection without duplicates the toggle flips exactly one
      membership: the clicked topping's. */
  lemma SelectFlipsMembership(f: FormModel, t: Topping, u: Topping)
    requires |f.toppings| < JsArray.MaxLength
    requires NoDuplicates(f.toppings)
    ensures u in SelectTopping(f, t).toppings <==> if u == t then t !in f.toppings else u in f.toppings
  {
    var r := SelectTopping(f, t).toppings;
    assert u in r <==> u in multiset(r);
    assert u in f.toppings <==> u in multiset(f.toppings);
    if t in f.toppings {
      var i :| 0 <= i < |f.toppings| && f.toppings[i] == t;
      NoDuplicatesCountOne(f.toppings, i);
    }
  }

  lemma NoDuplicatesCountOne(xs: seq<Topping>, i: int)
    requires 0 <= i < |xs| && NoDuplicates(xs)
    ensures multiset(xs)[xs[i]] == 1
  {
    assert xs == xs[..i] + [xs[i]] + xs[i + 1..];
    assert forall j :: 0 <= j < i ==> xs[..i][j] != xs[i];
    assert forall j :: i < j < |xs| ==> xs[j] != xs[i];
    var tail := xs[i + 1..];
    assert forall j :: 0 <= j < |tail| ==> tail[j] != xs[i];
    assert multiset(xs) == multiset(xs[..i]) + multiset{xs[i]} + multiset(xs[i + 1..]);
  }

  /** A submitted form that goes through: once the delayed callback runs,
      the pizza it described is the last of the facade's pizzas, and the
      form is back to empty and untouched. */
  lemma SubmitThenComplete(f: FormModel, rt: PizzaFacade.Runtime, id: nat)
    requires id < |rt.stores|
    ensures var (form, rt1, pending) := OnSubmit(f, false, rt, id);
            && pending.Some?
            && PizzaFacade.AddPizzaComplete(rt1, pending.value).current.pizzas == rt.current.pizzas + [Value(f)]
            && form == FormModel("", false, [], false)
  {
    var (form, rt1, pending) := OnSubmit(f, false, rt, id);
    var rt2 := PizzaFacade.AddPizzaComplete(rt1, pending.value);
    assert rt2.current.pizzas == rt1.current.pizzas + [Value(f)];
  }

  /** After a reset the name error is hidden, whatever the validators say. */
  lemma ResetHidesNameError(f: FormModel, nameRequired: bool)
    ensures !NameErrorShown(ResetForm(f), nameRequired)
  {
  }
}

=== FILE: pizzaservice.dfy ===
/** `PizzaService` of src/app/pizza/pizza.service.ts: the pizza and topping
    catalogues, and a small store of `{ pizzas, toppings }` whose `store`
    stream drops consecutive identical states. */
module PizzaService {
  import opened Wrappers
  import opened Interfaces
  import Streams

  /** `PIZZAS`. */
  const Pizzas: seq<Pizza> := [
    Pizza("New Yorker", ["Bacon", "Pepperoni", "Ham", "Mushrooms"]),
    Pizza("Hot & Spicy", ["Jalapenos", "Herbs", "Pepperoni", "Chicken"]),
    Pizza("Hawaiian", ["Ham", "Pineapple", "Sweetcorn"]),
    Pizza("Pepperoni", ["Pepperoni"])
  ]

  /** `TOPPINGS`. */
  const Toppings: seq<Topping> := [
    "Bacon", "Pepperoni", "Mushrooms", "Herbs",
    "Chicken", "Pineapple", "Ham", "Jalapenos"
  ]

  /** The service's own state record. */
  datatype CatalogState = CatalogState(pizzas: seq<Pizza>, toppings: seq<Topping>)

  /** The service's subject: its current value and every value it has
      been given, oldest first. */
  datatype Service = Service(value: CatalogState, history: seq<CatalogState>)

  /** The subject's current value is the last one it was given. */
  predicate Valid(svc: Service) {
    |svc.history| > 0 && Last(svc.history) == svc.value
  }

  /** A freshly constructed service, seeded with both catalogues. */
  function NewService(): (svc: Service)
    ensures Valid(svc) && |svc.history| == 1
    ensures svc.value == CatalogState(GetPizzas(), GetToppings())
  {
    var initial := CatalogState(Pizzas, Toppings);
    Service(initial, [initial])
  }

  /** `getPizzas()`: four pizzas, none of which lists a topping twice. */
  function GetPizzas(): (r: seq<Pizza>)
    ensures |r| == 4
    ensures forall p :: p in r ==> NoDuplicates(p.toppings)
    ensures NoDuplicates(MapNames(r))
  {
    Pizzas
  }

  function MapNames(ps: seq<Pizza>): seq<string> {
    Streams.MapSeq(ps, (p: Pizza) => p.name)
  }

  /** `getToppings()`: eight distinct toppings. */
  function GetToppings(): (r: seq<Topping>)
    ensures |r| == 8
    ensures NoDuplicates(r)
  {
    Toppings
  }

  /** Nothing ties the two catalogues together: a catalogue pizza can list
      a topping the topping catalogue does not offer. */
  lemma CatalogueNotClosed()
    ensures exists p, t :: p in GetPizzas() && t in p.toppings && t !in GetToppings()
  {
    var hawaiian := Pizzas[2];
    assert hawaiian in GetPizzas();
    assert hawaiian.toppings[2] == "Sweetcorn";
    assert "Sweetcorn" in hawaiian.toppings;
    assert "Sweetcorn" !in GetToppings();
  }

  /** `addPizza(pizza)`: publish a copy of the value with `pizza` appended. */
  function AddPizza(svc: Service, pizza: Pizza): (r: Service)
    requires Valid(svc)
    ensures Valid(r)
    ensures svc.value.pizzas <= r.value.pizzas
    ensures |r.value.pizzas| == |svc.value.pizzas| + 1 && Last(r.value.pizzas) == pizza
    ensures r.value.toppings == svc.value.toppings
    ensures r.history == svc.history + [r.value]
  {
    var value := svc.value;
    var next := value.(pizzas := value.pizzas + [pizza]);
    Service(next, svc.history + [next])
  }

  /** What `select(name)` reads from one state: `x[name]`. */
  datatype Selected = PizzasValue(pizzas: seq<Pizza>) | ToppingsValue(toppings: seq<Topping>) | Undefined

  function Field(s: CatalogState, name: string): (r: Selected)
    ensures r.PizzasValue? <==> name == "pizzas"
    ensures r.ToppingsValue? <==> name == "toppings"
    ensures r.PizzasValue? ==> r.pizzas == s.pizzas
    ensures r.ToppingsValue? ==> r.toppings == s.toppings
  {
    if name == "pizzas" then PizzasValue(s.pizzas)
    else if name == "toppings" then ToppingsValue(s.toppings)
    else Undefined
  }

  /** `store`: the subject's values with consecutive equal states dropped. */
  function Store(svc: Service): (r: seq<CatalogState>)
    ensures Streams.NoRepeats(r)
    ensures forall s :: s in r ==> s in svc.history
    ensures Valid(svc) ==> r != [] && r[0] == svc.history[0] && Last(r) == svc.value
  {
    Streams.Dedup(svc.history)
  }

  /** `store` on one more `next(s)`: it passes `s` on if and only if `s`
      differs from the subject's current value. */
  lemma StoreOnNext(svc: Service, s: CatalogState)
    requires Valid(svc)
    ensures Store(Service(s, svc.history + [s])) == Store(svc) + (if svc.value == s then [] else [s])
  {
    Streams.DedupSnoc(svc.history, s);
  }

  /** `select(name)`: the named field of every state `store` emits, with no
      further deduplication. */
  function Select(svc: Service, name: string): (r: seq<Selected>)
    ensures |r| == |Store(svc)|
    ensures forall i :: 0 <= i < |r| ==> r[i] == Field(Store(svc)[i], name)
    ensures Valid(svc) ==> r != [] && Last(r) == Field(svc.value, name)
  {
    Streams.MapSeq(Store(svc), (s: CatalogState) => Field(s, name))
  }

  /** The service after a run of `addPizza` calls, starting from `svc`. */
  function AddAll(svc: Service, ps: seq<Pizza>): (r: Service)
    requires Valid(svc)
    ensures Valid(r)
    decreases |ps|
  {
    if ps == [] then svc else AddPizza(AddAll(svc, ps[..|ps| - 1]), Last(ps))
  }

  /** After `addPizza` for each of `ps` on a fresh subject holding `base`,
      the subject has seen `|ps| + 1` states, the i-th with i more pizzas
      than `base` and `base`'s toppings. */
  lemma {:induction false} AddAllHistory(base: CatalogState, ps: seq<Pizza>)
    ensures |AddAll(Service(base, [base]), ps).history| == |ps| + 1
    ensures forall i :: 0 <= i <= |ps| ==>
              |AddAll(Service(base, [base]), ps).history[i].pizzas| == |base.pizzas| + i &&
              AddAll(Service(base, [base]), ps).history[i].toppings == base.toppings
    decreases |ps|
  {
    if ps != [] {
      var svc := Service(base, [base]);
      var init := ps[..|ps| - 1];
      AddAllHistory(base, init);
      var before := AddAll(svc, init);
      var after := AddAll(svc, ps);
      assert after == AddPizza(before, Last(ps));
      assert after.history == before.history + [after.value];
    }
  }

  /** Every `addPizza` grows the pizza list, so no two neighbouring
      states the subject has seen are equal and `store` drops nothing. */
  lemma StoreAfterAdds(base: CatalogState, ps: seq<Pizza>)
    ensures Store(AddAll(Service(base, [base]), ps)) == AddAll(Service(base, [base]), ps).history
  {
    var h := AddAll(Service(base, [base]), ps).history;
    AddAllHistory(base, ps);
    forall i | 0 < i < |h|
      ensures h[i - 1] != h[i]
    {
      assert |h[i - 1].pizzas| != |h[i].pizzas|;
    }
    assert Streams.NoRepeats(h);
    Streams.DedupFixedPoint(h);
  }

  /** `select('toppings')` repeats the same topping list once per state
      after any run of `addPizza`: the field projection is not
      deduplicated. */
  lemma SelectToppingsAfterAdds(base: CatalogState, ps: seq<Pizza>)
    ensures var sel := Select(AddAll(Service(base, [base]), ps), "toppings");
      |sel| == |ps| + 1 && forall i :: 0 <= i < |sel| ==> sel[i] == ToppingsValue(base.toppings)
  {
    var svc := AddAll(Service(base, [base]), ps);
    StoreAfterAdds(base, ps);
    AddAllHistory(base, ps);
    var sel := Select(svc, "toppings");
    forall i | 0 <= i < |sel|
      ensures sel[i] == ToppingsValue(base.toppings)
    {
      assert sel[i] == Field(svc.history[i], "toppings");
    }
  }
}

=== FILE: samplefacade.dfy ===
/** `SampleFacade` of src/app/sample.facade.ts: a `Facade` over pizza
    records whose state adds the two searches and the topping list, with
    the same eight slices and `vm$` as `PizzaFacade` and the same two
    loader completions. */
module SampleFacade {
  import opened Wrappers
  import opened Interfaces
  import Streams
  import opened Facade

  /** The fields `SampleState` adds to `State<Pizza>`. */
  datatype SampleExtra = SampleExtra(pizzaSearch: string, toppings: seq<Topping>, toppingSearch: string)

  type SampleState = State<Pizza, SampleExtra>

  type SampleFacade = Instance<Pizza, SampleExtra>

  /** The file's `_state`. */
  const InitialState: SampleState := State(
    [], Pagination(0, 50, DefaultPageSizes), Some(Operation(None, None)), false, 0,
    SampleExtra("", [], ""))

  /** Pages of fifty, a size that is offered, nothing loaded, not loading,
      counter at zero. */
  lemma InitialStateFacts()
    ensures InitialState.pagination.selectedSize == 50 && SizeAllowed(InitialState.pagination)
    ensures InitialState.pagination.currentPage == 0
    ensures InitialState.records == [] && InitialState.extra.toppings == []
    ensures !InitialState.loading && InitialState.counter == 0
  {
  }

  /** The constructor's `super(_state)`: every field is supplied, so the
      store is created on exactly `_state`. The loader completions that
      follow are `PizzasLoaded` and `ToppingsLoaded`. */
  function NewSampleFacade(): (f: SampleFacade)
    ensures f.state == InitialState && f.published == [InitialState]
  {
    ConstructSupplied(InitialState);
    Construct(Some(Supplied(InitialState))).value
  }

  /** Pizzas loader completion: replace the records, clear `loading`. */
  function PizzasLoaded(f: SampleFacade, pizzas: seq<Pizza>): (r: SampleFacade)
    ensures Valid(r) && r.published == f.published + [r.state]
    ensures r.state.records == pizzas && !r.state.loading
    ensures r.state.(records := f.state.records, loading := f.state.loading) == f.state
  {
    UpdateState(f, f.state.(records := pizzas, loading := false))
  }

  /** Toppings loader completion: replace the toppings, clear `loading`. */
  function ToppingsLoaded(f: SampleFacade, toppings: seq<Topping>): (r: SampleFacade)
    ensures Valid(r) && r.published == f.published + [r.state]
    ensures r.state.extra.toppings == toppings && !r.state.loading
    ensures r.state.(extra := f.state.extra, loading := f.state.loading) == f.state
    ensures r.state.extra.(toppings := f.state.extra.toppings) == f.state.extra
  {
    UpdateState(f, f.state.(extra := f.state.extra.(toppings := toppings), loading := false))
  }

  // ---------------------------------------------------------------------
  // Slices and the view model
  // ---------------------------------------------------------------------

  /** `pizzas$`, a projection of `records`. */
  function PizzasSlice(trace: seq<SampleState>): (r: seq<seq<Pizza>>)
    ensures Streams.NoRepeats(r)
    ensures trace != [] ==> r != [] && Last(r) == Last(trace).records
  {
    Streams.Slice(trace, (s: SampleState) => s.records)
  }

  /** `toppings$`. */
  function ToppingsSlice(trace: seq<SampleState>): (r: seq<seq<Topping>>)
    ensures Streams.NoRepeats(r)
    ensures trace != [] ==> r != [] && Last(r) == Last(trace).extra.toppings
  {
    Streams.Slice(trace, (s: SampleState) => s.extra.toppings)
  }

  /** `pizzaSearch$`. */
  function PizzaSearchSlice(trace: seq<SampleState>): (r: seq<string>)
    ensures Streams.NoRepeats(r)
    ensures trace != [] ==> r != [] && Last(r) == Last(trace).extra.pizzaSearch
  {
    Streams.Slice(trace, (s: SampleState) => s.extra.pizzaSearch)
  }

  /** `toppingSearch$`. */
  function ToppingSearchSlice(trace: seq<SampleState>): (r: seq<string>)
    ensures Streams.NoRepeats(r)
    ensures trace != [] ==> r != [] && Last(r) == Last(trace).extra.toppingSearch
  {
    Streams.Slice(trace, (s: SampleState) => s.extra.toppingSearch)
  }

  /** `pagination$`. */
  function PaginationSlice(trace: seq<SampleState>): (r: seq<Pagination>)
    ensures Streams.NoRepeats(r)
    ensures trace != [] ==> r != [] && Last(r) == Last(trace).pagination
  {
    Streams.Slice(trace, (s: SampleState) => s.pagination)
  }

  /** `operation$`. */
  function OperationSlice(trace: seq<SampleState>): (r: seq<Option<Operation<Pizza>>>)
    ensures Streams.NoRepeats(r)
    ensures trace != [] ==> r != [] && Last(r) == Last(trace).operation
  {
    Streams.Slice(trace, (s: SampleState) => s.operation)
  }

  /** `loading$`: no dedup, one value per published state. */
  function LoadingSlice(trace: seq<SampleState>): (r: seq<bool>)
    ensures |r| == |trace|
    ensures forall i :: 0 <= i < |trace| ==> r[i] == trace[i].loading
  {
    Streams.MapSeq(trace, (s: SampleState) => s.loading)
  }

  /** `counter$`. */
  function CounterSlice(trace: seq<SampleState>): (r: seq<int>)
    ensures Streams.NoRepeats(r)
    ensures trace != [] ==> r != [] && Last(r) == Last(trace).counter
  {
    Streams.Slice(trace, (s: SampleState) => s.counter)
  }

  /** The fields of a sample record, in `combineLatest` argument order. */
  datatype SampleField =
    | RecordsField | ToppingsField | PizzaSearchField | ToppingSearchField
    | PaginationField | OperationField | LoadingField | CounterField

  predicate AgreeOn(a: SampleState, b: SampleState, f: SampleField) {
    match f
    case RecordsField => a.records == b.records
    case ToppingsField => a.extra.toppings == b.extra.toppings
    case PizzaSearchField => a.extra.pizzaSearch == b.extra.pizzaSearch
    case ToppingSearchField => a.extra.toppingSearch == b.extra.toppingSearch
    case PaginationField => a.pagination == b.pagination
    case OperationField => a.operation == b.operation
    case LoadingField => a.loading == b.loading
    case CounterField => a.counter == b.counter
  }

  /** The field slice k of `vm$` carries. */
  function SliceField(k: nat): SampleField
    requires k < 8
  {
    [RecordsField, ToppingsField, PizzaSearchField, ToppingSearchField,
     PaginationField, OperationField, LoadingField, CounterField][k]
  }

  predicate SameSlice(a: SampleState, b: SampleState, k: nat) {
    k < 8 && AgreeOn(a, b, SliceField(k))
  }

  /** The eight slices `vm$` combines; all but `loading$` (index 6) drop
      repeats. */
  const VmSlices: Streams.Slices<SampleState> := Streams.Slices(8, (k: nat) => k != 6, SameSlice)

  /** The record `vm$`'s projection builds, taking field k from slot k and
      mapping the `pizzas` slice back into `records`. */
  function Compose(slots: seq<SampleState>): (r: SampleState)
    requires |slots| == 8
    ensures forall k :: 0 <= k < 8 ==> SameSlice(r, slots[k], k)
  {
    State(slots[0].records, slots[4].pagination, slots[5].operation, slots[6].loading, slots[7].counter,
          SampleExtra(slots[2].extra.pizzaSearch, slots[1].extra.toppings, slots[3].extra.toppingSearch))
  }

  /** The records `vm$` emits for a sequence of slot vectors. */
  function ComposeAll(vectors: seq<seq<SampleState>>): (r: seq<SampleState>)
    requires forall e :: e in vectors ==> |e| == 8
    ensures |r| == |vectors|
    ensures forall i :: 0 <= i < |vectors| ==> r[i] == Compose(vectors[i])
  {
    seq(|vectors|, i requires 0 <= i < |vectors| => Compose(vectors[i]))
  }

  /** `vm$` for a store that publishes `trace`, subscribed before the first
      value. It emits only once every slice has a value, first the first
      published record, then at least once per published record; its
      latest record equals the latest published one field for field,
      `records` included. */
  function Vm(trace: seq<SampleState>): (vm: seq<SampleState>)
    ensures trace != [] ==> |vm| >= |trace| && vm[0] == trace[0] && Last(vm) == Last(trace)
  {
    var vectors := Streams.Run(VmSlices, Streams.NoneYet(8), trace).1;
    var vm := ComposeAll(vectors);
    if trace == [] then vm
    else
      VmLatest(trace);
      VmFirst(trace);
      ComposeAllEnds(vectors);
      vm
  }

  /** The first and last records of a non-empty `ComposeAll` are the
      projections of the first and last vectors. */
  lemma ComposeAllEnds(vectors: seq<seq<SampleState>>)
    requires vectors != [] && forall e :: e in vectors ==> |e| == 8
    ensures ComposeAll(vectors)[0] == Compose(vectors[0])
    ensures Last(ComposeAll(vectors)) == Compose(Last(vectors))
  {
  }

  /** Slots that agree with `s` slice by slice compose to `s`. */
  lemma ComposeAgreeing(slots: Streams.Slots<SampleState>, s: SampleState)
    requires |slots| == 8
    requires forall j :: 0 <= j < 8 ==> Streams.SlotAgrees(VmSlices, slots[j], s, j)
    ensures Streams.AllSome(slots) && Compose(Streams.Values(slots)) == s
  {
    assert Streams.AllSome(slots);
    var v := Streams.Values(slots);
    forall j | 0 <= j < 8
      ensures v[j] == s || AgreeOn(v[j], s, SliceField(j))
    {
      assert Streams.SlotAgrees(VmSlices, slots[j], s, j);
    }
    assert AgreeOn(v[0], s, RecordsField);
    assert AgreeOn(v[1], s, ToppingsField);
    assert AgreeOn(v[2], s, PizzaSearchField);
    assert AgreeOn(v[3], s, ToppingSearchField);
    assert AgreeOn(v[4], s, PaginationField);
    assert AgreeOn(v[5], s, OperationField);
    assert AgreeOn(v[6], s, LoadingField);
    assert AgreeOn(v[7], s, CounterField);
  }

  /** The combined stream emits at least once per published record, and its
      last vector composes to the latest record. */
  lemma VmLatest(trace: seq<SampleState>)
    requires trace != []
    ensures var vectors := Streams.Run(VmSlices, Streams.NoneYet(8), trace).1;
            |vectors| >= |trace| && Compose(Last(vectors)) == Last(trace)
  {
    var none: Streams.Slots<SampleState> := Streams.NoneYet(8);
    var run := Streams.Run(VmSlices, none, trace);
    assert !VmSlices.deduped(6);
    Streams.RunLatest(VmSlices, none, trace);
    ComposeAgreeing(run.0, Last(trace));
  }

  /** The first vector the combined stream emits composes to the first
      published record. */
  lemma VmFirst(trace: seq<SampleState>)
    requires trace != []
    ensures var vectors := Streams.Run(VmSlices, Streams.NoneYet(8), trace).1;
            vectors != [] && Compose(vectors[0]) == trace[0]
  {
    var run := Streams.Run(VmSlices, Streams.NoneYet(8), trace);
    Streams.RunFirst(VmSlices, trace);
    var first := run.1[0];
    assert first[0] == trace[0] && first[1] == trace[0] && first[2] == trace[0] && first[3] == trace[0];
    assert first[4] == trace[0] && first[5] == trace[0] && first[6] == trace[0] && first[7] == trace[0];
  }

  /** For any instance whose values are delivered one after the other, the
      latest record of its `vm$` is its `_state`. */
  lemma VmOfInstance(f: SampleFacade)
    requires Valid(f)
    ensures Vm(f.published) != [] && Last(Vm(f.published)) == f.state
  {
  }
}

=== FILE: streams.dfy ===
/** The stream operators the facades are built from, modelled as functions
    over a finite trace: the values a store publishes, in order.

    - `MapSeq` is `map(f)`;
    - `Dedup` is `distinctUntilChanged()`;
    - `Slice` is a facade slice, `map(f)` followed by `distinctUntilChanged()`;
    - `DeliverFrom` and `Run` are `combineLatest` over slices that all hang
      off the same store and are subscribed in argument order, so that one
      published value reaches slice 0, then slice 1, and so on. */
module Streams {
  import opened Wrappers

  /** `map(f)`: the projection applied to every value of a trace. */
  function MapSeq<S, T>(xs: seq<S>, f: S -> T): (r: seq<T>)
    ensures |r| == |xs|
    ensures forall i :: 0 <= i < |xs| ==> r[i] == f(xs[i])
  {
    seq(|xs|, i requires 0 <= i < |xs| => f(xs[i]))
  }

  /** No value of `xs` equals the one right before it. */
  predicate NoRepeats<T(==)>(xs: seq<T>) {
    forall i :: 0 < i < |xs| ==> xs[i - 1] != xs[i]
  }

  // ---------------------------------------------------------------------
  // distinctUntilChanged
  // ---------------------------------------------------------------------

  /** What `distinctUntilChanged` emits for `xs` once the last value it
      emitted was `last`. */
  function DedupAfter<T(==)>(last: T, xs: seq<T>): seq<T>
    decreases |xs|
  {
    if xs == [] then []
    else if xs[0] == last then DedupAfter(last, xs[1..])
    else [xs[0]] + DedupAfter(xs[0], xs[1..])
  }

  /** `distinctUntilChanged()`: the first value, then every value that
      differs from the value emitted before it. It never emits two equal
      values in a row, keeps the first value, ends on the input's last
      value, and emits only values of its input. */
  function Dedup<T(==)>(xs: seq<T>): (r: seq<T>)
    ensures NoRepeats(r)
    ensures forall x :: x in r ==> x in xs
    ensures xs != [] ==> r != [] && r[0] == xs[0] && Last(r) == Last(xs)
  {
    if xs == [] then []
    else
      DedupAfterFacts(xs[0], xs[1..]);
      var tail := DedupAfter(xs[0], xs[1..]);
      assert forall x :: x in xs[1..] ==> x in xs;
      assert xs[1..] != [] ==> Last(xs[1..]) == Last(xs);
      [xs[0]] + tail
  }

  /** After emitting `last`, the operator never repeats `last`, never emits
      two equal values in a row, only emits values of the input, and its
      latest value (or `last`, if it stayed silent) is the input's last. */
  lemma {:induction false} DedupAfterFacts<T>(last: T, xs: seq<T>)
    ensures NoRepeats(DedupAfter(last, xs))
    ensures DedupAfter(last, xs) != [] ==> DedupAfter(last, xs)[0] != last
    ensures forall x :: x in DedupAfter(last, xs) ==> x in xs
    ensures xs != [] ==>
              Last(xs) == (if DedupAfter(last, xs) == [] then last else Last(DedupAfter(last, xs)))
    decreases |xs|
  {
    if xs == [] {
    } else if xs[0] == last {
      DedupAfterFacts(last, xs[1..]);
      assert forall x :: x in xs[1..] ==> x in xs;
      if xs[1..] != [] {
        assert Last(xs[1..]) == Last(xs);
      }
    } else {
      DedupAfterFacts(xs[0], xs[1..]);
      var tail := DedupAfter(xs[0], xs[1..]);
      assert DedupAfter(last, xs) == [xs[0]] + tail;
      assert forall x :: x in xs[1..] ==> x in xs;
      if xs[1..] != [] {
        assert Last(xs[1..]) == Last(xs);
      }
    }
  }

  /** A trace whose neighbours already differ passes through untouched. */
  lemma {:induction false} DedupAfterNoRepeats<T>(last: T, xs: seq<T>)
    requires NoRepeats([last] + xs)
    ensures DedupAfter(last, xs) == xs
    decreases |xs|
  {
    if xs != [] {
      assert ([last] + xs)[1] == xs[0];
      assert [xs[0]] + xs[1..] == xs;
      assert NoRepeats(xs) by {
        forall i | 0 < i < |xs|
          ensures xs[i - 1] != xs[i]
        {
          assert xs[i - 1] == ([last] + xs)[i] && xs[i] == ([last] + xs)[i + 1];
        }
      }
      DedupAfterNoRepeats(xs[0], xs[1..]);
      assert ([last] + xs)[0] != ([last] + xs)[1];
      assert DedupAfter(last, xs) == [xs[0]] + DedupAfter(xs[0], xs[1..]);
    }
  }

  /** `distinctUntilChanged` leaves a trace unchanged exactly when the trace
      has no two equal neighbours; in particular it is idempotent. */
  lemma DedupFixedPoint<T>(xs: seq<T>)
    ensures Dedup(xs) == xs <==> NoRepeats(xs)
    ensures Dedup(Dedup(xs)) == Dedup(xs)
  {
    if NoRepeats(xs) && xs != [] {
      assert [xs[0]] + xs[1..] == xs;
      DedupAfterNoRepeats(xs[0], xs[1..]);
    }
    var d := Dedup(xs);
    if d != [] {
      assert [d[0]] + d[1..] == d;
      DedupAfterNoRepeats(d[0], d[1..]);
    }
  }

  /** One more input value after `xs`: the operator emits it exactly when it
      differs from the value it compares against, which is the last input
      or, before any input, `last`. */
  lemma {:induction false} DedupAfterSnoc<T>(last: T, xs: seq<T>, x: T)
    ensures DedupAfter(last, xs + [x]) ==
              DedupAfter(last, xs) + (if (if xs == [] then last else Last(xs)) == x then [] else [x])
    decreases |xs|
  {
    if xs == [] {
      assert DedupAfter(last, [x]) == if x == last then [] else [x] + DedupAfter(x, []);
    } else {
      assert (xs + [x])[0] == xs[0] && (xs + [x])[1..] == xs[1..] + [x];
      if xs[1..] != [] {
        assert Last(xs[1..]) == Last(xs);
      }
      if xs[0] == last {
        DedupAfterSnoc(last, xs[1..], x);
      } else {
        DedupAfterSnoc(xs[0], xs[1..], x);
        assert DedupAfter(last, xs + [x]) == [xs[0]] + DedupAfter(xs[0], xs[1..] + [x]);
      }
    }
  }

  /** The step law of `distinctUntilChanged()`: a new value is passed on if
      and only if it differs from the value received just before it. */
  lemma DedupSnoc<T>(xs: seq<T>, x: T)
    requires xs != []
    ensures Dedup(xs + [x]) == Dedup(xs) + (if Last(xs) == x then [] else [x])
  {
    assert (xs + [x])[0] == xs[0] && (xs + [x])[1..] == xs[1..] + [x];
    DedupAfterSnoc(xs[0], xs[1..], x);
    if xs[1..] != [] {
      assert Last(xs[1..]) == Last(xs);
    }
  }

  /** A facade slice: `map(f)` followed by `distinctUntilChanged()`. */
  function Slice<S, T(==)>(trace: seq<S>, f: S -> T): (r: seq<T>)
    ensures NoRepeats(r)
    ensures |r| <= |trace|
    ensures trace != [] ==> r != [] && r[0] == f(trace[0]) && Last(r) == f(Last(trace))
  {
    var projected := MapSeq(trace, f);
    DedupLength(projected);
    Dedup(projected)
  }

  /** The step law of a slice: a newly published value is passed on if and
      only if its projection differs from that of the value before it. */
  lemma SliceSnoc<S, T>(trace: seq<S>, s: S, f: S -> T)
    requires trace != []
    ensures Slice(trace + [s], f) == Slice(trace, f) + (if f(Last(trace)) == f(s) then [] else [f(s)])
  {
    var projected := MapSeq(trace, f);
    assert MapSeq(trace + [s], f) == projected + [f(s)];
    DedupSnoc(projected, f(s));
  }

  /** `distinctUntilChanged` never emits more values than it receives. */
  lemma {:induction false} DedupAfterLength<T>(last: T, xs: seq<T>)
    ensures |DedupAfter(last, xs)| <= |xs|
    decreases |xs|
  {
    if xs != [] {
      if xs[0] == last {
        DedupAfterLength(last, xs[1..]);
      } else {
        DedupAfterLength(xs[0], xs[1..]);
      }
    }
  }

  lemma DedupLength<T>(xs: seq<T>)
    ensures |Dedup(xs)| <= |xs|
  {
    if xs != [] {
      DedupAfterLength(xs[0], xs[1..]);
    }
  }

  // ---------------------------------------------------------------------
  // combineLatest over slices of one store
  // ---------------------------------------------------------------------

  /** The `count` slices a `combineLatest` joins, in subscription order.
      Slice k drops a value whose slice-k part equals that of the value it
      emitted before (`same(a, b, k)`) exactly when `deduped(k)`. */
  datatype Slices<!S> = Slices(count: nat, deduped: nat -> bool, same: (S, S, nat) -> bool)

  /** The latest values `combineLatest` holds. Slot k is the store value
      whose slice-k part it last received; `None` until slice k emits. */
  type Slots<S> = seq<Option<S>>

  /** No slice has emitted yet: the state right after subscribing. */
  function NoneYet<S>(n: nat): (slots: Slots<S>)
    ensures |slots| == n && AllNone(slots)
  {
    seq(n, j => None)
  }

  predicate AllSome<S>(slots: Slots<S>) {
    forall j :: 0 <= j < |slots| ==> slots[j].Some?
  }

  predicate AllNone<S>(slots: Slots<S>) {
    forall j :: 0 <= j < |slots| ==> slots[j].None?
  }

  /** The values held in completely filled slots. */
  function Values<S>(slots: Slots<S>): (r: seq<S>)
    requires AllSome(slots)
    ensures |r| == |slots|
    ensures forall j :: 0 <= j < |slots| ==> slots[j] == Some(r[j])
  {
    seq(|slots|, j requires 0 <= j < |slots| => slots[j].value)
  }

  /** Whether slice k passes `cur` on, given the value it emitted before. */
  predicate Emits<S>(sl: Slices<S>, prev: Option<S>, cur: S, k: nat) {
    !(sl.deduped(k) && prev.Some? && sl.same(prev.value, cur, k))
  }

  /** Some slice passes every value on: there is a slice without dedup. */
  predicate HasEagerSlice<S>(sl: Slices<S>) {
    exists j :: 0 <= j < sl.count && !sl.deduped(j)
  }

  /** How many of slices k, k+1, ... pass `cur` on, judged against the
      slots as they stand before the delivery. */
  function EmitCount<S>(sl: Slices<S>, latest: Slots<S>, cur: S, k: nat): nat
    requires |latest| == sl.count && k <= sl.count
    decreases sl.count - k
  {
    if k == sl.count then 0
    else (if Emits(sl, latest[k], cur, k) then 1 else 0) + EmitCount(sl, latest, cur, k + 1)
  }

  /** The count only looks at slots k, k+1, .... */
  lemma {:induction false} EmitCountFrame<S>(sl: Slices<S>, a: Slots<S>, b: Slots<S>, cur: S, k: nat)
    requires |a| == sl.count && |b| == sl.count && k <= sl.count
    requires forall j :: k <= j < sl.count ==> a[j] == b[j]
    ensures EmitCount(sl, a, cur, k) == EmitCount(sl, b, cur, k)
    decreases sl.count - k
  {
    if k < sl.count {
      EmitCountFrame(sl, a, b, cur, k + 1);
    }
  }

  /** One published value `cur` reaching slices k, k+1, ..., in order. Each
      slice that emits replaces its slot; `combineLatest` emits the whole
      slot vector after a slice emits, once every slot is filled. Returns
      the new slots and the vectors emitted. */
  function DeliverFrom<S(==)>(sl: Slices<S>, latest: Slots<S>, cur: S, k: nat): (r: (Slots<S>, seq<seq<S>>))
    requires |latest| == sl.count && k <= sl.count
    ensures |r.0| == sl.count
    ensures forall j :: 0 <= j < k ==> r.0[j] == latest[j]
    ensures forall j :: k <= j < sl.count ==>
              r.0[j] == (if Emits(sl, latest[j], cur, j) then Some(cur) else latest[j])
    ensures forall e :: e in r.1 ==> |e| == sl.count
    ensures r.1 != [] ==> AllSome(r.0) && Last(r.1) == Values(r.0)
    ensures AllSome(latest) && r.1 == [] ==> r.0 == latest
    ensures (forall j :: k <= j < sl.count ==> !Emits(sl, latest[j], cur, j)) ==> r.1 == []
    ensures |r.1| <= EmitCount(sl, latest, cur, k)
    ensures AllSome(latest) ==> |r.1| == EmitCount(sl, latest, cur, k)
    decreases sl.count - k
  {
    if k == sl.count then (latest, [])
    else if !Emits(sl, latest[k], cur, k) then DeliverFrom(sl, latest, cur, k + 1)
    else
      var filled := latest[k := Some(cur)];
      EmitCountFrame(sl, latest, filled, cur, k + 1);
      var rest := DeliverFrom(sl, filled, cur, k + 1);
      ((rest.0), (if AllSome(filled) then [Values(filled)] else []) + rest.1)
  }

  /** If every slot before k is filled and some slice from k on emits, the
      delivery makes `combineLatest` emit. */
  lemma {:induction false} DeliverEmits<S>(sl: Slices<S>, latest: Slots<S>, cur: S, k: nat)
    requires |latest| == sl.count && k <= sl.count
    requires forall j :: 0 <= j < k ==> latest[j].Some?
    requires exists j :: k <= j < sl.count && Emits(sl, latest[j], cur, j)
    ensures DeliverFrom(sl, latest, cur, k).1 != []
    decreases sl.count - k
  {
    if !Emits(sl, latest[k], cur, k) {
      DeliverEmits(sl, latest, cur, k + 1);
    } else {
      var filled := latest[k := Some(cur)];
      if exists j :: k + 1 <= j < sl.count && Emits(sl, filled[j], cur, j) {
        DeliverEmits(sl, filled, cur, k + 1);
      } else {
        assert AllSome(filled) by {
          forall j | 0 <= j < |filled|
            ensures filled[j].Some?
          {
            if k < j {
              assert !Emits(sl, filled[j], cur, j);
            }
          }
        }
      }
    }
  }

  /** The very first value reaching not-yet-emitted slices k, k+1, ...:
      every one of them emits and takes the value, and `combineLatest`
      emits exactly once, at the last slice, if the earlier slots are
      filled, and never otherwise. */
  lemma {:induction false} FirstDelivery<S>(sl: Slices<S>, latest: Slots<S>, cur: S, k: nat)
    requires |latest| == sl.count && k < sl.count
    requires forall j :: k <= j < sl.count ==> latest[j].None?
    ensures DeliverFrom(sl, latest, cur, k).1 ==
              (if forall j :: 0 <= j < k ==> latest[j].Some?
               then [Values(DeliverFrom(sl, latest, cur, k).0)] else [])
    decreases sl.count - k
  {
    var filled := latest[k := Some(cur)];
    assert Emits(sl, latest[k], cur, k);
    if k + 1 < sl.count {
      assert !AllSome(filled) by {
        assert filled[sl.count - 1].None?;
      }
      FirstDelivery(sl, filled, cur, k + 1);
      assert forall j :: 0 <= j < k ==> filled[j] == latest[j];
      assert filled[k].Some?;
    } else {
      assert forall j :: 0 <= j < k ==> filled[j] == latest[j];
      assert filled[k].Some? && |filled| == k + 1;
    }
  }

  /** `combineLatest` fed a whole trace of published values. */
  function Run<S(==)>(sl: Slices<S>, latest: Slots<S>, trace: seq<S>): (r: (Slots<S>, seq<seq<S>>))
    requires |latest| == sl.count
    ensures |r.0| == sl.count
    ensures forall e :: e in r.1 ==> |e| == sl.count
    decreases |trace|
  {
    if trace == [] then (latest, [])
    else
      var d := DeliverFrom(sl, latest, trace[0], 0);
      var rest := Run(sl, d.0, trace[1..]);
      (rest.0, d.1 + rest.1)
  }

  /** True when slot `j` holds a value whose slice-j part is that of `s`. */
  predicate SlotAgrees<S(==)>(sl: Slices<S>, slot: Option<S>, s: S, j: nat) {
    slot == Some(s) || (slot.Some? && sl.same(slot.value, s, j))
  }

  /** From a fresh subscription (or one where every slice has emitted),
      with one slice that never drops a value: every published value makes
      `combineLatest` emit at least once, the last vector it emits is its
      final slot vector, and every slot then agrees with the last published
      value on its own slice. */
  lemma {:induction false} RunLatest<S>(sl: Slices<S>, latest: Slots<S>, trace: seq<S>)
    requires |latest| == sl.count && trace != []
    requires AllSome(latest) || (AllNone(latest) && sl.count > 0)
    requires HasEagerSlice(sl)
    ensures |Run(sl, latest, trace).1| >= |trace|
    ensures AllSome(Run(sl, latest, trace).0)
    ensures Last(Run(sl, latest, trace).1) == Values(Run(sl, latest, trace).0)
    ensures forall j :: 0 <= j < sl.count ==> SlotAgrees(sl, Run(sl, latest, trace).0[j], Last(trace), j)
    decreases |trace|
  {
    var cur := trace[0];
    var d := DeliverFrom(sl, latest, cur, 0);
    DeliverOnce(sl, latest, cur);
    var rest := Run(sl, d.0, trace[1..]);
    assert Run(sl, latest, trace) == (rest.0, d.1 + rest.1);
    if trace[1..] == [] {
      assert rest == (d.0, []);
    } else {
      RunLatest(sl, d.0, trace[1..]);
      assert Last(trace[1..]) == Last(trace);
    }
  }

  /** One published value reaching every slice, from a fresh subscription
      or one where every slice has emitted, with one slice that never drops
      a value: `combineLatest` emits, and every slot is then filled and
      agrees with that value on its own slice. */
  lemma DeliverOnce<S>(sl: Slices<S>, latest: Slots<S>, cur: S)
    requires |latest| == sl.count
    requires AllSome(latest) || (AllNone(latest) && sl.count > 0)
    requires HasEagerSlice(sl)
    ensures DeliverFrom(sl, latest, cur, 0).1 != [] && AllSome(DeliverFrom(sl, latest, cur, 0).0)
    ensures forall j :: 0 <= j < sl.count ==> SlotAgrees(sl, DeliverFrom(sl, latest, cur, 0).0[j], cur, j)
  {
    var d := DeliverFrom(sl, latest, cur, 0);
    if AllSome(latest) {
      var e :| 0 <= e < sl.count && !sl.deduped(e);
      assert Emits(sl, latest[e], cur, e);
      DeliverEmits(sl, latest, cur, 0);
    } else {
      FirstDelivery(sl, latest, cur, 0);
    }
    forall j | 0 <= j < sl.count
      ensures SlotAgrees(sl, d.0[j], cur, j)
    {
      assert latest[j].Some? || Emits(sl, latest[j], cur, j);
    }
  }

  /** On a fresh subscription the first vector `combineLatest` emits holds
      the first published value in every slot: nothing is emitted before
      every slice has a value. */
  lemma RunFirst<S>(sl: Slices<S>, trace: seq<S>)
    requires trace != [] && sl.count > 0
    ensures Run(sl, NoneYet(sl.count), trace).1 != []
    ensures forall j :: 0 <= j < sl.count ==> Run(sl, NoneYet(sl.count), trace).1[0][j] == trace[0]
  {
    var latest: Slots<S> := NoneYet(sl.count);
    var d := DeliverFrom(sl, latest, trace[0], 0);
    FirstDelivery(sl, latest, trace[0], 0);
    assert d.1 == [Values(d.0)];
    forall j | 0 <= j < sl.count
      ensures Values(d.0)[j] == trace[0]
    {
      assert Emits(sl, latest[j], trace[0], j);
    }
  }
}

=== FILE: toppingsselector.dfy ===
/** `ToppingsSelectorComponent` of
    src/app/pizza/components/toppings-selector/toppings-selector.component.ts:
    which catalogue toppings are highlighted, what a click emits, and when
    the "select at least 1 topping" error shows. Whether the parent group
    carries the `noToppings` error comes from a validator this model does
    not include, so it is an input. */
module ToppingsSelector {
  import opened Interfaces
  import JsArray
  import PizzaForm

  /** `exists(topping)`: `!!~selected.indexOf(topping)`. */
  function Exists(selected: seq<Topping>, t: Topping): (r: bool)
    requires |selected| <= JsArray.MaxLength
    ensures r <==> t in selected
  {
    JsArray.FoundIndexOfIffIn(selected, t);
    JsArray.Found(JsArray.IndexOf(selected, t))
  }

  /** `isActive(topping)`: the highlight is exactly membership. */
  function IsActive(selected: seq<Topping>, t: Topping): (r: bool)
    requires |selected| <= JsArray.MaxLength
    ensures r == Exists(selected, t)
    ensures r <==> t in selected
  {
    Exists(selected, t)
  }

  /** `onSelect(topping)`: the one value emitted on `select`. */
  function OnSelect(t: Topping): (emitted: seq<Topping>)
    ensures |emitted| == 1 && emitted[0] == t
  {
    [t]
  }

  /** The `invalid` getter: both the group error and a touched array. */
  function Invalid(noToppings: bool, touched: bool): (shown: bool)
    ensures shown ==> noToppings && touched
    ensures !touched ==> !shown
    ensures noToppings && touched ==> shown
  {
    noToppings && touched
  }

  /** A click, wired through the form: the emitted topping is toggled in
      the form's list. On a list without duplicates exactly the clicked
      topping changes its highlight. */
  lemma ClickFlipsHighlight(f: PizzaForm.FormModel, t: Topping, u: Topping)
    requires |f.toppings| < JsArray.MaxLength
    requires NoDuplicates(f.toppings)
    ensures var after := PizzaForm.SelectTopping(f, OnSelect(t)[0]).toppings;
            |after| <= JsArray.MaxLength &&
            (IsActive(after, u) <==> if u == t then !IsActive(f.toppings, t) else IsActive(f.toppings, u))
  {
    var after := PizzaForm.SelectTopping(f, t).toppings;
    assert |multiset(after)| <= |multiset(f.toppings)| + 1;
    PizzaForm.SelectFlipsMembership(f, t, u);
  }

  /** Selecting a topping that was not highlighted touches the array, so
      the error shows whenever the validator reports `noToppings`; after a
      reset it never shows. */
  lemma ErrorVisibility(f: PizzaForm.FormModel, t: Topping, noToppings: bool)
    requires |f.toppings| < JsArray.MaxLength
    requires t !in f.toppings
    ensures Invalid(noToppings, PizzaForm.SelectTopping(f, t).toppingsTouched) == noToppings
    ensures !Invalid(noToppings, PizzaForm.ResetForm(f).toppingsTouched)
  {
  }
}

=== FILE: userurl.dfy ===
/** `buildUserUrl` of src/app/user/user.service.ts: the query URL for the
    random-user API, assembled from fixed text and the pagination. */
module UserUrl {
  import opened Wrappers
  import opened Interfaces
  import opened Decimal
  import JsArray

  const Endpoint: string := "https://randomuser.me/api/"
  const SearchFor: string := "seed=mindspaceDemo&inc=gender,name,nat"

  /** Everything before the page size. */
  const Head: string := Endpoint + "?" + SearchFor + "&" + "results="

  /** What separates the page size from the page number: `pageSize` already
      ends in `&` and the template adds another. */
  const Joint: string := "&" + "&" + "page="

  predicate EndsWith(s: string, suffix: string) {
    |suffix| <= |s| && s[|s| - |suffix|..] == suffix
  }

  /** The URL for a search. `criteria` is accepted and not used. */
  function BuildUserUrl(criteria: string, pagination: Pagination): (url: string)
    ensures Endpoint + "?" <= url
    ensures Head <= url
    ensures EndsWith(url, Joint + IntToString(pagination.currentPage))
    ensures ParseUserUrl(url) == Some((pagination.selectedSize, pagination.currentPage))
  {
    var currentPage := "page=" + IntToString(pagination.currentPage);
    var pageSize := "results=" + IntToString(pagination.selectedSize) + "&";
    var url := Endpoint + "?" + SearchFor + "&" + pageSize + "&" + currentPage;
    Shape(pagination.selectedSize, pagination.currentPage);
    url
  }

  /** The template's text regrouped around the two numbers. */
  lemma Shape(size: int, page: int)
    ensures var url := Endpoint + "?" + SearchFor + "&" + ("results=" + IntToString(size) + "&") + "&" + ("page=" + IntToString(page));
      && url == Head + IntToString(size) + Joint + IntToString(page)
      && Endpoint + "?" <= url
      && Head <= url
      && EndsWith(url, Joint + IntToString(page))
      && ParseUserUrl(url) == Some((size, page))
  {
    var s := IntToString(size);
    var p := IntToString(page);
    Regroup(Endpoint, "?", SearchFor, "&", "results=", s, "&", "page=", p);
    var url := Head + s + Joint + p;
    assert url == Head + (s + Joint + p);
    assert Head == (Endpoint + "?") + (SearchFor + "&" + "results=");
    assert url == (Head + s) + (Joint + p);
    ParseBuilt(size, page);
  }

  lemma Regroup<T>(e: seq<T>, q: seq<T>, sf: seq<T>, amp: seq<T>, res: seq<T>, s: seq<T>, amp2: seq<T>, pg: seq<T>, p: seq<T>)
    ensures e + q + sf + amp + (res + s + amp2) + amp + (pg + p) == (e + q + sf + amp + res) + s + (amp2 + amp + pg) + p
  {
  }

  /** Reads the page size and page number back out of a URL shaped like
      `BuildUserUrl`'s. */
  function ParseUserUrl(url: string): Option<(int, int)> {
    if !(Head <= url) then None
    else
      ParseTail(url[|Head|..])
  }

  /** Reads `<size>&&page=<page>`. */
  function ParseTail(rest: string): Option<(int, int)> {
    var i := JsArray.IndexOf(rest, '&');
    if i < 0 || |rest| - i < |Joint| || rest[i..i + |Joint|] != Joint then None
    else
      match (ParseInt(rest[..i]), ParseInt(rest[i + |Joint|..]))
      case (Some(size), Some(page)) => Some((size, page))
      case _ => None
  }

  /** The first `x` of `a + b` is `b`'s first element when `a` has none. */
  lemma IndexOfAfterPrefix<T>(a: seq<T>, b: seq<T>, x: T)
    requires x !in a && |b| > 0 && b[0] == x
    ensures JsArray.IndexOf(a + b, x) == |a|
  {
    assert (a + b)[|a|] == x;
  }

  lemma ParseBuilt(size: int, page: int)
    ensures ParseUserUrl(Head + IntToString(size) + Joint + IntToString(page)) == Some((size, page))
  {
    var s := IntToString(size);
    var p := IntToString(page);
    var rest := s + Joint + p;
    ParseTailBuilt(size, page);
    assert Head + s + Joint + p == Head + rest;
    SplitAt(Head, rest);
  }

  lemma ParseTailBuilt(size: int, page: int)
    ensures ParseTail(IntToString(size) + Joint + IntToString(page)) == Some((size, page))
  {
    var s := IntToString(size);
    var p := IntToString(page);
    var rest := s + Joint + p;
    assert rest == s + (Joint + p);
    assert '&' !in s;
    IndexOfAfterPrefix(s, Joint + p, '&');
    assert rest[..|s|] == s;
    assert rest[|s|..|s| + |Joint|] == Joint;
    assert rest[|s| + |Joint|..] == p;
    IntRoundTrip(size);
    IntRoundTrip(page);
  }

  lemma SplitAt<T>(a: seq<T>, b: seq<T>)
    ensures (a + b)[..|a|] == a && (a + b)[|a|..] == b
  {
  }

  /** The search criteria never reach the URL. */
  lemma CriteriaIgnored(c1: string, c2: string, pagination: Pagination)
    ensures BuildUserUrl(c1, pagination) == BuildUserUrl(c2, pagination)
  {
  }
}

=== FILE: wrappers.dfy ===
/** Wrappers used across the model: `Option` stands for a
    JavaScript value that may be `null` or `undefined`, `Result` for an
    operation that may throw. */
module Wrappers {

  datatype Option<+T> = None | Some(value: T) {

    /** The wrapped value, or `default` when there is none. */
    function GetOr(default: T): T {
      match this
      case Some(v) => v
      case None => default
    }
  }

  datatype Result<+R, +E> = Success(value: R) | Failure(error: E)

  /** The last element of a non-empty sequence. */
  function Last<T>(xs: seq<T>): T
    requires |xs| > 0
  {
    xs[|xs| - 1]
  }
}
